=== FILE: README.md ===
# Driving-session client core, modelled in Dafny

This project models the part of a React Native dash-cam app that does real work:

- The **driving screen** (`Driving/driving.tsx`). A press on start checks permissions, the camera and the stored login token. It then opens a WebSocket whose URL carries the percent-encoded bearer token, sends `START`, and records two-second clips in a loop. Each clip is packaged and sent as a binary frame while the next one, the lookahead clip, records; the loop waits for a clip to finish recording before it starts the next. A press on stop ends the loop cooperatively. The `finally` block sends `END` only if `START` went out and the socket is still open. It closes the channel and moves to the records tab when the navigate-after-stop ref is set. The stop handler sets that ref, and so can the stale effect teardown at lines 89-93 (see "## Findings"). The screen also has a one-second elapsed counter and its `mm:ss` clock.
- The **WebSocket helpers** (`utils/wsHelpers.ts`): the optional zip step and the base64-to-bytes copy loop.
- The **my-page screen** (`screens/tabNavScreens/MyPageScreen.jsx`). It covers:
  - the total-driving-time label;
  - the gender label;
  - the join date;
  - the clamped safe score;
  - the defaults for missing or non-numeric fields.
- The **sign-up form** (`Login/Signup.jsx`):
  - its fields and the controls that change them;
  - the five-step submit validation;
  - the birth-date formatter.

The session is one sequential state machine, `DrivingSession.Step`. Each `await` of `startRecording` becomes a phase. The outcome of each await becomes an event, and a step emits the outbound actions up to the next await.

The protocol those actions must follow is written separately, as the left-fold monitor `DrivingProtocol.ObserveAll`, from the backend contract alone. The main theorem, `DrivingSessionProofs.SessionTraceConforms`, shows that every trace of every event sequence passes the monitor.

Modules:

| file | module | contents |
|---|---|---|
| wrappers.dfy | `Wrappers`, `Octets` | `Option`, bytes |
| decimal.dfy | `Decimal` | decimal numerals, two-digit padding |
| uri_component.dfy | `UriComponent` | `encodeURIComponent` and a decoder for it |
| ws_helpers.dfy | `WsHelpers` | zip step, base64 byte copy |
| driving_protocol.dfy | `DrivingProtocol` | actions, protocol monitor, counting lemmas |
| driving_session.dfy | `DrivingSession` | session state machine, `formatTime` |
| driving_session_proofs.dfy | `DrivingSessionProofs` | trace conformance, stop properties, scenarios, double start, error exit |
| my_page.dfy | `MyPage` | my-page derived values |
| signup.dfy | `Signup` | sign-up form, validation, date text |

## Model

| member | source | states |
|---|---|---|
| DrivingSession.StartRefusal | Driving/driving.tsx:128-130 | The start checks run in order: permissions, then camera, then token. Each alert kind is returned exactly when its check is the first to fail. None is returned exactly when all checks pass. |
| DrivingSession.ConnectionUrlDecodes | Driving/driving.tsx:144 | The URL is the fixed `ws://host/ws/driving?token=` prefix followed by URI-safe characters only. Decoding that query value gives back exactly `Bearer ` plus the token. |
| DrivingSession.ContainsIff | Driving/driving.tsx:171 | The `includes` scan is true exactly when the pattern occurs at some index of the message. |
| DrivingSession.OnStart | Driving/driving.tsx:126-152 | The entry with the corrected guard, which the machine runs; `driving.tsx`'s literal guard is `DrivingSession.OnStartAsWritten`. A press while a session is under way (any phase but idle) does nothing. Otherwise the press emits exactly one action: the alert of the first failed check with the state unchanged, or the connect to the token's URL, which enters dialing with the stop request cleared. |
| DrivingSession.OnStartAsWritten | Driving/driving.tsx:127 | `driving.tsx`'s guard ignores the press only while `recording` is up. When `recording` is down and the checks pass, the press connects again. The button's `disabled={stopping}` (line 260) is not modelled, so this member would also connect after a stop while the cleanup runs, which the screen cannot do. |
| DrivingSession.OnOpened | Driving/driving.tsx:145-152 | Once connected and open, START is the only action. `startedSent`, `recording` and the loop flag rise, and the counter restarts at 0. |
| DrivingSession.OnWarmupDone | Driving/driving.tsx:155-161 | After the warm-up, the first loop test either records the next segment or, if stop came meanwhile, runs the cleanup. |
| DrivingSession.OnSegmentDone | Driving/driving.tsx:99-116 | A clip without a URI fails with the no-URI error. Otherwise packaging begins, and the lookahead recording starts exactly when the loop flag is still up. |
| DrivingSession.OnPayloadReady | Driving/driving.tsx:160-168 | The frame of the current segment is always the first action. With the loop down, the rest is exactly the cleanup. With the loop up and a lookahead, the session awaits that lookahead and does nothing more. |
| DrivingSession.OnStop | Driving/driving.tsx:228-238 | Stop emits nothing and is a no-op unless recording. Otherwise it lowers loop and `recording`, raises `stopping` and navigate-after-stop, and leaves the phase and the channel alone. |
| DrivingSession.OnTick | Driving/driving.tsx:74-87 | The counter grows by one exactly while recording, and nothing else changes. |
| DrivingSession.Cleanup | Driving/driving.tsx:177-225 | After the cleanup the session is idle: loop, `recording`, `stopping` and navigate-after-stop are down, the channel is closed, and the counter is kept. |
| DrivingSession.CleanupOutput | Driving/driving.tsx:189-221 | END is sent exactly when START went out and the socket is open. There is exactly one close. The records tab is opened exactly when a stop asked for it. Nothing else is emitted. |
| DrivingSession.CleanupAsWritten | Driving/driving.tsx:89-93 | The cleanup as `driving.tsx` behaves when the stale effect teardown runs during the close wait: same next state as the cleanup, and the records tab is opened exactly when a stop asked for it or the session was recording on an open channel. |
| DrivingSession.FailAsWritten | Driving/driving.tsx:89-93 | The catch path as `driving.tsx` behaves under that re-render: same next state as the catch path, the alert exactly for a non-benign message, and the records tab exactly when a stop asked for it or the session was recording on an open channel. |
| DrivingSession.Fail | Driving/driving.tsx:169-177 | The catch path ends in the same state as the cleanup. |
| DrivingSession.FailOutput | Driving/driving.tsx:169-176 | The failure alert appears, once, exactly when the message is not the benign stop race. The output ends with the cleanup's output and contains nothing else. |
| DrivingSession.Step | Driving/driving.tsx:136-177 | A rejected await lands in the catch path exactly when it is the await of the current phase: a failed connect while dialing, a failed recording while awaiting a segment, a failed read while packaging. The outcome of an await that is not pending changes nothing. A channel drop emits nothing and only moves an open channel to closed. |
| DrivingSession.FormatTime | Driving/driving.tsx:95-96 | The clock is at least `MM:SS`, exactly five characters below 100 minutes. Its digit groups read back as the whole minutes and the remaining seconds. |
| DrivingSession.FormatTimeRoundTrip | Driving/driving.tsx:95-96 | Reading the clock back gives the counter. |
| DrivingSession.ParseClockInverse | Driving/driving.tsx:95-96 | The reader accepts only clocks the screen can show: any text that reads back as a count is exactly the clock of that count, so over-padded or unpadded groups are refused. |
| DrivingSessionProofs.SessionTraceConforms | Driving/driving.tsx:126-238 | For the machine with the corrected start guard (with `driving.tsx`'s guard, `DrivingSessionProofs.DoubleStartAsWritten` shows a breaking trace): every trace follows the protocol, for every event sequence from the initial screen. Connect comes only on a closed channel, START is first, recording has at most one lookahead, frames go in order, END is sent at most once and only after START, and there is one close per connect. Once idle, connects equal closes and ENDs do not exceed STARTs. |
| DrivingSessionProofs.RunConforms | Driving/driving.tsx:126-238 | For the machine with the corrected start guard, the state invariant and the match between session phase and protocol state hold after any run. |
| DrivingSessionProofs.StepConforms | Driving/driving.tsx:126-238 | For the machine with the corrected start guard, one step keeps the invariant and the match with the protocol state. |
| DrivingSessionProofs.CleanupConforms | Driving/driving.tsx:177-225 | The cleanup's actions bring the protocol back to quiet from any session or dial. |
| DrivingSessionProofs.FailConforms | Driving/driving.tsx:169-225 | The same holds for the catch path from any busy phase. |
| DrivingSessionProofs.StopTwiceIsStopOnce | Driving/driving.tsx:228-229 | A second stop changes nothing and emits nothing. |
| DrivingSessionProofs.FailRecordsNothing | Driving/driving.tsx:169-225 | The catch-and-finally path never records and leaves the loop down. |
| DrivingSessionProofs.StepKeepsLoopDown | Driving/driving.tsx:160-162 | Once the loop flag is down and no start is pressed, no step raises it or records. |
| DrivingSessionProofs.NoRecordingAfterStop | Driving/driving.tsx:160-162 | After a stop, no sequence of events without a new start records another segment. |
| DrivingSessionProofs.StepNavigatesOnlyForStop | Driving/driving.tsx:218-221 | Without a stop press, no step asks for or performs the move to the records tab. |
| DrivingSessionProofs.NoNavigationWithoutStop | Driving/driving.tsx:218-221 | With the machine's cleanup, no run without a stop press navigates, error exits included. |
| DrivingSessionProofs.ConnectionUrlOfPlainToken | Driving/driving.tsx:144 | For a token of unreserved characters the URL is the prefix, `Bearer%20`, then the token. |
| DrivingSessionProofs.ScenarioFirstFrame | Driving/driving.tsx:144-168 | One segment and one tick give connect, START, segment 0, lookahead 1, frame 0, and a counter of 1. |
| DrivingSessionProofs.ScenarioStopWhileRecording | Driving/driving.tsx:228-238 | A stop during a recording still sends that frame, then END, close and the move to the records tab. No new segment starts. |
| DrivingSessionProofs.ScenarioStopWhilePackaging | Driving/driving.tsx:158-168 | A stop during packaging sends that frame and exits. The lookahead already recording is never sent. |
| DrivingSessionProofs.ScenarioMicrophoneDenied | Driving/driving.tsx:128 | One permission alert and no channel. |
| DrivingSessionProofs.ScenarioConnectFails | Driving/driving.tsx:169-196 | A failed connect gives an alert and a close, but no END. |
| DrivingSessionProofs.ScenarioBenignRace | Driving/driving.tsx:169-221 | The stop race is silent and the cleanup runs in full. |
| DrivingSessionProofs.BenignClassification | Driving/driving.tsx:171 | The camera's stop-race message is benign. The missing-URI message is not. |
| DrivingSessionProofs.DoubleStartAsWritten | Driving/driving.tsx:127 | With `driving.tsx`'s guard, a second press while dialing connects a second channel, and the trace breaks the protocol. |
| DrivingSessionProofs.DoubleStartCorrected | Driving/driving.tsx:127 | With the session guard, the second press emits nothing and the trace conforms. |
| DrivingSessionProofs.ErrorExitAsWritten | Driving/driving.tsx:89-93 | As `driving.tsx` behaves: press, open and warm-up, with no stop anywhere, reach the recording state; a real error on the first segment then gives the alert, END, the close and the move to the records tab. |
| DrivingSessionProofs.ErrorExitCorrected | Driving/driving.tsx:169-221 | With the machine's cleanup, the same run and failure give the alert, END and the close, and the screen stays. |
| DrivingProtocol.ObserveAllAppend | Driving/driving.tsx:126-238 | The monitor over a concatenation is the monitor over the parts, in order. |
| DrivingProtocol.ConnectsBalanceCloses | Driving/driving.tsx:145-195 | Connects plus the channels open before equal closes plus the channels open after. |
| DrivingProtocol.EndsNeverExceedStarts | Driving/driving.tsx:147-190 | ENDs plus the END still owed after never exceed STARTs plus the END owed before. |
| DrivingProtocol.ConformsPrefix | Driving/driving.tsx:126-238 | Every prefix of a conforming trace conforms. |
| UriComponent.Encode | Driving/driving.tsx:144 | The encoding is never shorter than its input and consists of URI-safe characters only. |
| UriComponent.DecodeEncode | Driving/driving.tsx:144 | Decoding the percent-encoding gives back the original string. |
| UriComponent.EncodeIdentityIff | Driving/driving.tsx:144 | The encoding leaves a string unchanged exactly when every character is unreserved. |
| UriComponent.EncodeAppend | Driving/driving.tsx:144 | Encoding distributes over concatenation. |
| UriComponent.DecodeUtf8OfUtf8 | Driving/driving.tsx:144 | The UTF-8 bytes of a character decode back to that character. |
| WsHelpers.ZipSingleFileIfAvailable | utils/wsHelpers.ts:37-47 | The path returned is the original or its zip target. It is the zip target exactly when the zip module is present and zipping succeeds. |
| WsHelpers.ZipTarget | utils/wsHelpers.ts:39 | The target ends in `.zip` and replaces a final `.mp4` in any letter case; other paths get `.zip` appended. |
| WsHelpers.ZipTargetDiffers | utils/wsHelpers.ts:39 | The zip target is never the original path. |
| WsHelpers.BinaryToBytes | utils/wsHelpers.ts:20-22 | One byte per character: the character code taken mod 256, which is what a `Uint8Array` store does. |
| WsHelpers.BytesRoundTrip | utils/wsHelpers.ts:19-22 | A byte string read back as bytes gives the same bytes. |
| WsHelpers.BinaryRoundTripIff | utils/wsHelpers.ts:19-22 | The copy loses nothing exactly when every character is below 256. |
| WsHelpers.B64ToArrayBuffer | utils/wsHelpers.ts:16-24 | The bytes are those of the decoded string, and a missing input decodes as the empty string. |
| Decimal.NatToString | Driving/driving.tsx:96 | The numeral is non-empty, made of digits, one digit exactly below 10, and has no leading zero. |
| Decimal.DigitsValueOfNatToString | Driving/driving.tsx:96 | The numeral reads back as the number. |
| Decimal.NatToStringInjective | Driving/driving.tsx:96 | Distinct numbers get distinct numerals. |
| Decimal.Pad2 | Driving/driving.tsx:96 | The result is at least two digits, exactly two below 100, unchanged from 10 on, and reads back as the number. |
| Decimal.RenderedAreCanonical | Driving/driving.tsx:96 | Every numeral and every padded numeral is the canonical text of the value it reads back as. |
| MyPage.FormatTotalDrivingTime | screens/tabNavScreens/MyPageScreen.jsx:52-62 | The label always ends in `분`. |
| MyPage.FormatTotalDrivingTimeMeaning | screens/tabNavScreens/MyPageScreen.jsx:52-62 | The label reads back, under a reader that takes only canonical numerals and an hour part only for a positive hour, as hours and minutes, with minutes below 60. It covers a positive input to within one minute, shows 0 for zero or negative input, and shows hours exactly from 3600 seconds on. |
| MyPage.FormatTotalDrivingTimeDetermined | screens/tabNavScreens/MyPageScreen.jsx:52-62 | Any text that reads back as hours and minutes (below 60) covering the input as the label does is exactly the label: the reading determines the label. |
| MyPage.ParseDurationText | screens/tabNavScreens/MyPageScreen.jsx:58-61 | The hours-and-minutes text reads back as its hours and minutes. |
| MyPage.ParseDurationInverse | screens/tabNavScreens/MyPageScreen.jsx:58-61 | The reader accepts only texts the label can take: whatever reads back as hours and minutes is exactly their text, so `0시간 5분` and `05분` are refused. |
| MyPage.FormatTotalDrivingTimeMinuteGranularity | screens/tabNavScreens/MyPageScreen.jsx:52-62 | Two positive durations get the same label exactly when they agree in whole minutes. |
| MyPage.GenderLabel | screens/tabNavScreens/MyPageScreen.jsx:87-92 | The label is always truthy. `MALE` and `FEMALE` map to their Korean words. Any other truthy value passes through, and a falsy one shows `-`. Each case is stated as an iff. |
| MyPage.JoinedAt | screens/tabNavScreens/MyPageScreen.jsx:95 | A falsy value shows `-`. A string shows its first ten characters, or all of it if shorter. A truthy non-string makes `slice` throw. |
| MyPage.JoinedAtOfTimestamp | screens/tabNavScreens/MyPageScreen.jsx:95 | An ISO timestamp shows its date part. |
| MyPage.Clamp | screens/tabNavScreens/MyPageScreen.jsx:99 | The score lies in 0..100 and equals the input inside that range. Values below the range become 0 and values above it become 100. |
| MyPage.ClampMonotoneIdempotent | screens/tabNavScreens/MyPageScreen.jsx:99 | Clamping keeps order and is idempotent. |
| MyPage.Or | screens/tabNavScreens/MyPageScreen.jsx:142-145 | The result is truthy exactly when the value is truthy or the fallback is non-empty, so a non-empty fallback always gives a truthy result. |
| MyPage.OrIdempotent | screens/tabNavScreens/MyPageScreen.jsx:142-145 | With a non-empty fallback, applying the fallback twice is applying it once, and the value is left as it is exactly when it is truthy or already the fallback text. |
| MyPage.View | screens/tabNavScreens/MyPageScreen.jsx:86-110 | The shown score is within 0..100. Name, handle, gender and birth date are always truthy. |
| MyPage.OrShown | screens/tabNavScreens/MyPageScreen.jsx:142-145 | With a non-empty fallback, the fallback expression draws no text exactly when the value is `true`, which is kept as truthy and drawn by React as nothing. |
| MyPage.ViewShown | screens/tabNavScreens/MyPageScreen.jsx:86-205 | For every profile, the name, the handle after `@`, the gender and the birth date draw no text exactly when the server sent that field as `true`; otherwise each draws some text. |
| MyPage.ViewWithoutProfile | screens/tabNavScreens/MyPageScreen.jsx:86-110 | Without a profile every field shows its fallback. |
| MyPage.NonNumbersCountAsZero | screens/tabNavScreens/MyPageScreen.jsx:98-110 | A non-numeric count, time or score shows as zero. |
| Signup.TrimStart | Login/Signup.jsx:23-25 | Only white space is removed from the front, and the result starts with a non-space. |
| Signup.TrimEnd | Login/Signup.jsx:23-25 | Only white space is removed from the back, and the result ends with a non-space. |
| Signup.TrimEmptyIff | Login/Signup.jsx:23-25 | The trimmed text is empty exactly when the text is all white space. |
| Signup.TrimIsInfix | Login/Signup.jsx:23-25 | Trimming keeps a contiguous middle part and removes only white space around it. |
| Signup.Fmt | Login/Signup.jsx:19-20 | No date gives the placeholder. A date gives `year-MM-DD` whose year part reads back as the year. |
| Signup.FmtRoundTrip | Login/Signup.jsx:19-20 | The button text reads back as the picked date, and the placeholder reads as no date. |
| Signup.ParseDateInverse | Login/Signup.jsx:19-20 | The reader accepts only texts the button can show: whatever reads back as a date is exactly that date's text, so zero-padded years are refused. |
| Signup.FmtInjective | Login/Signup.jsx:19-20 | Distinct dates, or a date and none, show distinct texts. |
| Signup.Apply | Login/Signup.jsx:12-17 | Gender changes only with the two buttons. The birth date changes only when the picker reports a date, and only to that date. |
| Signup.ApplyAllKeepsChoices | Login/Signup.jsx:69-72 | Gender stays `M` or `F`, and a picked birth date is never cleared. |
| Signup.BlankFormChoices | Login/Signup.jsx:12 | From the blank form, gender is always `M` or `F`. |
| Signup.Validate | Login/Signup.jsx:23-27 | Each error is reported exactly when its check is the first to fail, and none exactly when all pass. Nickname and id count as missing when they are all white space. The password is checked untrimmed, and the match is checked only once the length is met. |
| Signup.Submit | Login/Signup.jsx:22-39 | A failed check shows its own message. Otherwise `login` is called, and if it throws, the generic failure message is shown. |
| Signup.MessagesDistinct | Login/Signup.jsx:23-27 | The five messages are pairwise distinct and differ from the generic failure. |
| Signup.LoginIffAllChecksPass | Login/Signup.jsx:22-34 | `login` succeeds exactly when all five checks pass and it does not throw. |
| Signup.PasswordLengthBoundary | Login/Signup.jsx:26 | Six characters pass and five fail. |
| Signup.ShortBeforeMismatch | Login/Signup.jsx:26-27 | A short, mismatched password is reported as too short. |

## Left out

- Speech output (`Speech.speak`, `Speech.stop`), camera and microphone permission requests, audio mode, and `AsyncStorage` token loading are not modelled. They are I/O whose results are event parameters here: permissions, readiness and the token arrive with `StartPressed`.
- The WebSocket transport is left out. `Driving/context/WebSocketContext.tsx` only provides a ref, so `connect`, `onceOpen`, `sendJson`, `sendBinary` and `close` are abstract actions. Socket drops are the `SocketDropped` event.
- Timing is modelled as events: the 150 ms warm-up, the two-second segments and the one-second interval. The 600 ms or 300 ms close wait inside `finally` (Driving/driving.tsx:196-216) is not a phase: the cleanup is one atomic step, and what can happen during the wait is stated in the next two lines.
- DrivingSessionProofs.NoNavigationWithoutStop: holds for the machine's cleanup, not for the program. `setRecording(false)` at Driving/driving.tsx:184 comes before the close wait, and a re-render during the wait runs the teardown of the effect at lines 89-93, whose stale `stopRecording` sets the navigate-after-stop ref (line 233) that line 218 then reads. An error exit from a session that was recording can therefore move to the records tab. `DrivingSession.CleanupAsWritten` and `DrivingSessionProofs.ErrorExitAsWritten` state this; it depends on React render timing, so the machine keeps the cleanup without it.
- DrivingSession.OnStart: the corrected guard (no start unless idle) also covers the close wait, during which `recording` is already false in the program, so a new start there can overlap the old cleanup. The model's cleanup is atomic, so that overlap is not represented.
- DrivingSession.OnStop, DrivingSession.Cleanup: the camera stop (`stopNativeRecordingIfAny`, Driving/driving.tsx:118-124, called at lines 183 and 235) is a device call, not a trace action. Its only modelled effect is that the awaited recording finishes early, as a `SegmentDone` or `SegmentFailed` event. That the lookahead recording is released when the session ends during packaging is not stated.
- `fileUriToArrayBuffer` (`decodeURI`, `readAsStringAsync`) and `atob`/`Buffer` base64 decoding are left out, as file I/O and library code. Base64 decoding is a parameter of `WsHelpers.B64ToArrayBuffer`. The actual zip call is reduced to `WsHelpers.ZipModule`, meaning absent, or present and succeeding or failing.
- Strings are sequences of Unicode scalar values. JavaScript's UTF-16 code units are not modelled, so `length` and `slice` in `MyPage.JoinedAt` and the password length count characters, and lone surrogates (on which `encodeURIComponent` throws) cannot occur.
- JavaScript numbers are integers here. NaN, infinities and fractional seconds in `MyPage.FormatTotalDrivingTime` are not modelled.
- Signup.Fmt: the year is a natural number. Negative years (`getFullYear` of dates before year 0) are outside the model, and the date's calendar validity is reduced to month 0..11 and day 1..31.
- `fetchMyProfile`, the loading flag, the `res.success` test and logout on the my-page screen are left out. `MyPage.View` takes the profile as an optional record.
- DrivingReady, LoginScreen, HomeScreen, RecordScreen and App navigation are static screens outside this model.
- DrivingSession.OnPayloadReady: when stop comes while a frame is being packaged, the code exits the loop and never awaits or sends the lookahead segment that is already recording. `DrivingSessionProofs.ScenarioStopWhilePackaging` shows the drop.
- MyPage.View: its text fields are stated truthy, not non-blank. A field the server sends as JSON `true` passes through `||`, and React draws a boolean as nothing, so the name and birth date then show empty and the handle a bare `@`. `MyPage.ViewShown` states exactly when that happens.

## Findings

| source | as written | input that shows it | evidently intended | confidence | as-written member | corrected member |
|---|---|---|---|---|---|---|
| Driving/driving.tsx:127 | The reentrancy guard of `startRecording` tests only `recording`, which is set only after START at line 150. A second press during connect passes the guard. | Press start, then press start again before the channel opens. Two connects are issued on one screen. | A start press while a session is connecting or running does nothing. | medium, not executed | DrivingSessionProofs.DoubleStartAsWritten | DrivingSessionProofs.DoubleStartCorrected |
| Driving/driving.tsx:89-93 | The effect's teardown calls the `stopRecording` of the render in which `recording` was true. After `setRecording(false)` in `finally`, a re-render during the close wait runs it, and it sets the navigate-after-stop ref that line 218 reads. | A segment recording fails with an error other than the stop race while the channel is open, and the close handshake takes long enough for a re-render. The screen shows the failure alert and then moves to the records tab. | Only a user stop moves to the records tab; an error exit stays on the driving screen. | low, not executed | DrivingSessionProofs.ErrorExitAsWritten | DrivingSessionProofs.ErrorExitCorrected |

=== FILE: decimal.dfy ===
/**
 * Decimal rendering of natural numbers, as JavaScript's `String(n)` and template
 * literals print a non-negative integer, and `padStart(2, "0")`. Shared by every
 * formatter of the model. Each renderer is paired with a parser and a round-trip lemma.
 */
module Decimal {

  predicate IsDigit(c: char) {
    '0' <= c <= '9'
  }

  predicate AllDigits(s: string) {
    forall i :: 0 <= i < |s| ==> IsDigit(s[i])
  }

  function DigitChar(d: nat): (c: char)
    requires d < 10
    ensures IsDigit(c)
    ensures c as int - '0' as int == d
  {
    ('0' as int + d) as char
  }

  function DigitValue(c: char): (d: nat)
    requires IsDigit(c)
    ensures d < 10
    ensures DigitChar(d) == c
  {
    c as int - '0' as int
  }

  /** The shortest decimal numeral of `n`, most significant digit first. */
  function NatToString(n: nat): (s: string)
    ensures 1 <= |s|
    ensures AllDigits(s)
    ensures |s| == 1 <==> n < 10
    ensures s[0] != '0' || n == 0
  {
    if n < 10 then [DigitChar(n)] else NatToString(n / 10) + [DigitChar(n % 10)]
  }

  /** The value of a string of digits; leading zeros are allowed, "" is 0. */
  function DigitsValue(s: string): nat
    requires AllDigits(s)
  {
    if |s| == 0 then 0 else DigitsValue(s[..|s| - 1]) * 10 + DigitValue(s[|s| - 1])
  }

  /** Reading back a rendered numeral gives the number. */
  lemma {:induction false} DigitsValueOfNatToString(n: nat)
    ensures DigitsValue(NatToString(n)) == n
  {
    if n >= 10 {
      var s := NatToString(n);
      assert s[..|s| - 1] == NatToString(n / 10);
      DigitsValueOfNatToString(n / 10);
    }
  }

  /** Rendering is injective: distinct numbers have distinct numerals. */
  lemma NatToStringInjective(m: nat, n: nat)
    requires NatToString(m) == NatToString(n)
    ensures m == n
  {
    DigitsValueOfNatToString(m);
    DigitsValueOfNatToString(n);
  }

  /** A leading zero does not change the value of a digit string. */
  lemma {:induction false} DigitsValueLeadingZero(s: string)
    requires AllDigits(s)
    ensures AllDigits("0" + s)
    ensures DigitsValue("0" + s) == DigitsValue(s)
  {
    if |s| > 0 {
      var t := "0" + s;
      assert t[..|t| - 1] == "0" + s[..|s| - 1];
      DigitsValueLeadingZero(s[..|s| - 1]);
    }
  }

  /**
   * `String(n).padStart(2, "0")`: numerals shorter than two characters get one
   * leading "0"; longer numerals are left as they are.
   */
  function Pad2(n: nat): (s: string)
    ensures AllDigits(s)
    ensures |s| >= 2
    ensures n < 100 ==> |s| == 2
    ensures n >= 10 ==> s == NatToString(n)
    ensures DigitsValue(s) == n
  {
    DigitsValueOfNatToString(n);
    var t := NatToString(n);
    if |t| < 2 then
      DigitsValueLeadingZero(t);
      "0" + t
    else
      t
  }

  /** A digit string exactly as `String(n)` prints its value: no leading zero, not empty. */
  predicate IsNumeral(d: string) {
    AllDigits(d) && NatToString(DigitsValue(d)) == d
  }

  /** A digit string exactly as `padStart(2, "0")` prints its value. */
  predicate IsPadded2(d: string) {
    AllDigits(d) && Pad2(DigitsValue(d)) == d
  }

  /** Every rendered numeral is canonical, and so is every padded one. */
  lemma RenderedAreCanonical(n: nat)
    ensures IsNumeral(NatToString(n)) && DigitsValue(NatToString(n)) == n
    ensures IsPadded2(Pad2(n)) && DigitsValue(Pad2(n)) == n
  {
    DigitsValueOfNatToString(n);
  }
}

=== FILE: driving_protocol.dfy ===
/**
 * The outbound side of a driving session, and the protocol those actions must follow.
 * The monitor below is written from the backend contract alone (connect, START,
 * binary frames in recording order, END, close) and knows nothing of the session
 * machine; the session proofs show that every trace the machine emits passes it.
 */
module DrivingProtocol {

  /** The four user-visible alerts of Driving/driving.tsx. */
  datatype AlertKind =
    | PermissionNeeded   // camera or microphone permission missing
    | CameraNotReady     // camera view not ready yet
    | TokenMissing       // no login token
    | RecordingFailed    // any non-benign error while connecting or streaming

  /** What the session does to the outside world, in the order it does it. */
  datatype Action =
    | Connect(url: string)                // channel connect
    | SendStart                           // {"type":"START"}
    | RecordSegment(seg: nat)             // camera recordAsync for segment `seg` of the session
    | SendFrame(seg: nat, path: string)   // one binary frame: the payload read from `path`
    | SendEnd                             // {"type":"END"}
    | CloseChannel                        // channel close
    | ShowAlert(kind: AlertKind)
    | NavigateToRecords                   // move to the records tab

  /**
   * Protocol state. `Live` remembers the highest segment recorded and the highest
   * segment sent in the current session (-1 for none), and whether an alert was shown.
   */
  datatype Monitor =
    | Quiet(justClosed: bool)
    | Dialed(alerted: bool)
    | Live(lastRecorded: int, lastSent: int, alerted: bool)
    | Ended
    | Violation

  /**
   * One action against the protocol:
   *  - a channel is connected only when none is open, and START is its first message;
   *  - segments are recorded consecutively, with at most one lookahead: a new recording
   *    starts only while at most one recorded segment is still unsent;
   *  - frames are sent one per segment, in recording order, never ahead of the recording;
   *  - END comes after START, at most once, and only CLOSE may follow it;
   *  - at most one alert per session, none after END;
   *  - navigation only directly after a close.
   */
  function Observe(m: Monitor, a: Action): Monitor {
    match a
    case Connect(_) => if m.Quiet? then Dialed(false) else Violation
    case SendStart => if m == Dialed(false) then Live(-1, -1, false) else Violation
    case RecordSegment(i) =>
      if m.Live? && !m.alerted && i == m.lastRecorded + 1 && m.lastRecorded - m.lastSent <= 1
      then Live(i, m.lastSent, false) else Violation
    case SendFrame(i, _) =>
      if m.Live? && !m.alerted && i == m.lastSent + 1 && i <= m.lastRecorded
      then Live(m.lastRecorded, i, false) else Violation
    case SendEnd => if m.Live? then Ended else Violation
    case CloseChannel => if m.Dialed? || m.Live? || m.Ended? then Quiet(true) else Violation
    case ShowAlert(_) =>
      (match m
       case Quiet(_) => Quiet(false)
       case Dialed(alerted) => if alerted then Violation else Dialed(true)
       case Live(r, s, alerted) => if alerted then Violation else Live(r, s, true)
       case _ => Violation)
    case NavigateToRecords => if m == Quiet(true) then Quiet(false) else Violation
  }

  /** The monitor run over a sequence of actions, first action first. */
  function ObserveAll(m: Monitor, actions: seq<Action>): Monitor
    decreases |actions|
  {
    if actions == [] then m else ObserveAll(Observe(m, actions[0]), actions[1..])
  }

  /** A violation is final: no later action repairs it. */
  lemma {:induction false} ViolationIsFinal(actions: seq<Action>)
    ensures ObserveAll(Violation, actions) == Violation
  {
    if actions != [] {
      ViolationIsFinal(actions[1..]);
    }
  }

  /** Observing two stretches of a trace one after the other is observing their concatenation. */
  lemma {:induction false} ObserveAllAppend(m: Monitor, a: seq<Action>, b: seq<Action>)
    ensures ObserveAll(m, a + b) == ObserveAll(ObserveAll(m, a), b)
    decreases |a|
  {
    if a == [] {
      assert a + b == b;
    } else {
      assert (a + b)[0] == a[0];
      assert (a + b)[1..] == a[1..] + b;
      ObserveAllAppend(Observe(m, a[0]), a[1..], b);
    }
  }

  lemma ObserveOne(m: Monitor, a: Action)
    ensures ObserveAll(m, [a]) == Observe(m, a)
  {
    assert [a][1..] == [];
  }

  const Fresh: Monitor := Quiet(false)

  /** A whole trace, from before the first session, follows the protocol. */
  predicate Conforms(trace: seq<Action>) {
    ObserveAll(Fresh, trace) != Violation
  }

  /** Conformance is prefix-closed: every prefix of a conforming trace conforms. */
  lemma ConformsPrefix(a: seq<Action>, b: seq<Action>)
    requires Conforms(a + b)
    ensures Conforms(a)
  {
    ObserveAllAppend(Fresh, a, b);
    if ObserveAll(Fresh, a) == Violation {
      ViolationIsFinal(b);
    }
  }

  // ---------------------------------------------------------------------------
  // Counting consequences
  // ---------------------------------------------------------------------------

  function Count(trace: seq<Action>, a: Action): nat {
    multiset(trace)[a]
  }

  function Connects(trace: seq<Action>): nat
    decreases |trace|
  {
    if trace == [] then 0 else (if trace[0].Connect? then 1 else 0) + Connects(trace[1..])
  }

  /** 1 while a channel is dialed or open, 0 when none is. */
  function ChannelsOpen(m: Monitor): nat {
    if m.Dialed? || m.Live? || m.Ended? then 1 else 0
  }

  /** 1 while an END may still be sent for the current session. */
  function EndPending(m: Monitor): nat {
    if m.Live? then 1 else 0
  }

  lemma CountStep(a: Action, rest: seq<Action>, b: Action)
    ensures Count([a] + rest, b) == (if a == b then 1 else 0) + Count(rest, b)
  {
    assert multiset([a] + rest) == multiset([a]) + multiset(rest);
  }

  /**
   * Every channel that is connected is closed exactly once: over a conforming stretch of
   * trace, connects plus channels open before equal closes plus channels open after.
   */
  lemma {:induction false} ConnectsBalanceCloses(m: Monitor, trace: seq<Action>)
    requires ObserveAll(m, trace) != Violation
    ensures Connects(trace) + ChannelsOpen(m) == Count(trace, CloseChannel) + ChannelsOpen(ObserveAll(m, trace))
    decreases |trace|
  {
    if trace == [] {
      assert Count(trace, CloseChannel) == 0;
    } else {
      var m1 := Observe(m, trace[0]);
      if m1 == Violation {
        ViolationIsFinal(trace[1..]);
      }
      ConnectsBalanceCloses(m1, trace[1..]);
      assert [trace[0]] + trace[1..] == trace;
      CountStep(trace[0], trace[1..], CloseChannel);
    }
  }

  /** END is never sent more often than START: over a conforming stretch, at most one END per START. */
  lemma {:induction false} EndsNeverExceedStarts(m: Monitor, trace: seq<Action>)
    requires ObserveAll(m, trace) != Violation
    ensures Count(trace, SendEnd) + EndPending(ObserveAll(m, trace)) <= Count(trace, SendStart) + EndPending(m)
    decreases |trace|
  {
    if trace == [] {
      assert Count(trace, SendEnd) == 0;
    } else {
      var m1 := Observe(m, trace[0]);
      if m1 == Violation {
        ViolationIsFinal(trace[1..]);
      }
      EndsNeverExceedStarts(m1, trace[1..]);
      assert [trace[0]] + trace[1..] == trace;
      CountStep(trace[0], trace[1..], SendEnd);
      CountStep(trace[0], trace[1..], SendStart);
    }
  }
}

=== FILE: driving_session.dfy ===
/**
 * The driving screen's session orchestrator (Driving/driving.tsx, `startRecording`,
 * `stopRecording`, the elapsed-time tick and `formatTime`), flattened into one
 * sequential state machine. Every suspension point of `startRecording` becomes a
 * phase, and the outcome of each await becomes an event; a step emits the outbound
 * actions of the code that runs until the next await.
 */
module DrivingSession {
  import opened Wrappers
  import opened Decimal
  import UriComponent
  import WsHelpers
  import opened DrivingProtocol

  /** Backend address, host and port. */
  const Host: string := "15.165.244.204:8080"

  /** Everything of the connection URL before the encoded token. */
  const UrlPrefix: string := "ws://" + Host + "/ws/driving?token="

  /** The rejection text of a segment the camera finalised before capturing anything. */
  const BenignMarker: string := "stopped before any data"

  /** The rejection text of a recording that resolved without a file URI. */
  const NoUriMessage: string := "No video URI returned"

  /** readyState of the channel, as far as the session can observe it. */
  datatype Readiness = Connecting | Open | Closed

  /**
   * Where `startRecording` is suspended:
   *  - Dialing: awaiting `connect(url)` and `onceOpen()`;
   *  - WarmingUp: START sent, in the 150 ms delay before the first segment;
   *  - Awaiting(seg): awaiting the recording of segment `seg`;
   *  - Packaging(seg, uri, lookahead): zipping and reading segment `seg` from `uri`,
   *    while the lookahead segment, if one was started, records.
   */
  datatype Phase =
    | Idle
    | Dialing
    | WarmingUp
    | Awaiting(seg: nat)
    | Packaging(seg: nat, uri: string, lookahead: Option<nat>)

  /**
   * The screen's state: the `recording` and `stopping` React states, the loop and
   * navigate-after-stop refs, the elapsed counter, the `startedSent` local of the
   * running `startRecording`, the next segment number and the channel's readiness.
   */
  datatype Session = Session(
    phase: Phase,
    recording: bool,
    loop: bool,
    startedSent: bool,
    navigateAfterStop: bool,
    stopping: bool,
    elapsed: nat,
    nextSeg: nat,
    socket: Readiness)

  const Initial: Session := Session(Idle, false, false, false, false, false, 0, 0, Closed)

  /**
   * Inputs to the machine: the two button handlers, the elapsed-time tick, and the
   * outcome of each await. Permissions, camera readiness and the stored token are the
   * values `startRecording` reads when pressed.
   */
  datatype Event =
    | StartPressed(camPerm: bool, micPerm: bool, cameraReady: bool, jwt: Option<string>)
    | Opened                               // connect and onceOpen resolved
    | ConnectFailed(message: string)       // connect or onceOpen threw
    | WarmupDone                           // the 150 ms warm-up delay elapsed
    | SegmentDone(uri: string)             // the awaited recordAsync resolved; "" when it carried no URI
    | SegmentFailed(message: string)       // the awaited recording rejected
    | PayloadReady(zip: WsHelpers.ZipModule) // zip step and file read finished
    | PayloadFailed(message: string)       // reading the clip threw
    | StopPressed
    | Tick                                 // one second of the elapsed-time interval
    | SocketDropped                        // the channel left the OPEN state on its own

  /** A step's result: the next state and the actions emitted on the way. */
  datatype Transition = Transition(next: Session, out: seq<Action>)

  /** JavaScript truthiness of the stored token: null and "" are missing. */
  predicate TokenPresent(jwt: Option<string>) {
    jwt.Some? && jwt.value != ""
  }

  /**
   * The precondition chain of `startRecording`: the alert of the first failing check,
   * or None when all pass. Permissions are checked first, then the camera, then the token.
   */
  function StartRefusal(camPerm: bool, micPerm: bool, cameraReady: bool, jwt: Option<string>): (r: Option<AlertKind>)
    ensures r == None <==> camPerm && micPerm && cameraReady && TokenPresent(jwt)
    ensures r == Some(PermissionNeeded) <==> !camPerm || !micPerm
    ensures r == Some(CameraNotReady) <==> camPerm && micPerm && !cameraReady
    ensures r == Some(TokenMissing) <==> camPerm && micPerm && cameraReady && !TokenPresent(jwt)
    ensures r != Some(RecordingFailed)
  {
    if !camPerm || !micPerm then Some(PermissionNeeded)
    else if !cameraReady then Some(CameraNotReady)
    else if !TokenPresent(jwt) then Some(TokenMissing)
    else None
  }

  /**
   * The channel URL: the bearer credential travels percent-encoded as the `token` query
   * value. The query value is made of URI-safe characters only (no '&', '#', space), and
   * decoding it gives back exactly "Bearer " followed by the token.
   */
  function ConnectionUrl(jwt: string): string {
    UrlPrefix + UriComponent.Encode("Bearer " + jwt)
  }

  /**
   * The URL starts with the fixed prefix; the query after it is URI-safe and decodes back
   * to "Bearer " followed by the token.
   */
  lemma ConnectionUrlDecodes(jwt: string)
    ensures |UrlPrefix| <= |ConnectionUrl(jwt)| && ConnectionUrl(jwt)[..|UrlPrefix|] == UrlPrefix
    ensures forall i :: |UrlPrefix| <= i < |ConnectionUrl(jwt)| ==> UriComponent.UriSafe(ConnectionUrl(jwt)[i])
    ensures UriComponent.Decode(ConnectionUrl(jwt)[|UrlPrefix|..]) == Some("Bearer " + jwt)
  {
    var query := UriComponent.Encode("Bearer " + jwt);
    UriComponent.DecodeEncode("Bearer " + jwt);
    assert ConnectionUrl(jwt)[|UrlPrefix|..] == query;
  }

  predicate OccursAt(text: string, pattern: string, i: int) {
    0 <= i && i + |pattern| <= |text| && text[i..i + |pattern|] == pattern
  }

  lemma OccursAtShift(text: string, pattern: string, i: int)
    requires |text| > 0
    ensures OccursAt(text[1..], pattern, i) <==> i >= 0 && OccursAt(text, pattern, i + 1)
  {
    if 0 <= i && i + |pattern| <= |text| - 1 {
      assert text[1..][i..i + |pattern|] == text[i + 1..i + 1 + |pattern|];
    }
  }

  /** Whether `pattern` occurs in `text`, scanning from the left (String.prototype.includes). */
  function Contains(text: string, pattern: string): bool
    decreases |text|
  {
    if |pattern| > |text| then false
    else if text[..|pattern|] == pattern then true
    else Contains(text[1..], pattern)
  }

  lemma {:induction false} ContainsIff(text: string, pattern: string)
    ensures Contains(text, pattern) <==> exists i :: OccursAt(text, pattern, i)
    decreases |text|
  {
    if |pattern| > |text| {
      assert forall i :: !OccursAt(text, pattern, i);
    } else if text[..|pattern|] == pattern {
      assert OccursAt(text, pattern, 0);
    } else {
      ContainsIff(text[1..], pattern);
      if Contains(text[1..], pattern) {
        var j :| OccursAt(text[1..], pattern, j);
        OccursAtShift(text, pattern, j);
      }
      if exists i :: OccursAt(text, pattern, i) {
        var i :| OccursAt(text, pattern, i);
        assert i != 0;
        OccursAtShift(text, pattern, i - 1);
      }
    }
  }

  predicate IsBenign(message: string) {
    Contains(message, BenignMarker)
  }

  /**
   * The `finally` block: clear the loop flag and `recording`, send END only when START
   * went out and the channel is still OPEN, close the channel, and navigate to the
   * records tab only when a user stop asked for it, clearing that request.
   */
  function Cleanup(s: Session): (t: Transition)
    ensures t.next.phase == Idle && !t.next.recording && !t.next.loop
    ensures !t.next.navigateAfterStop && !t.next.stopping && t.next.socket == Closed
    ensures t.next.elapsed == s.elapsed
  {
    var sendEnd := s.startedSent && s.socket == Open;
    var endPart: seq<Action> := if sendEnd then [SendEnd] else [];
    var navPart: seq<Action> := if s.navigateAfterStop then [NavigateToRecords] else [];
    Transition(
      s.(phase := Idle, loop := false, recording := false, navigateAfterStop := false,
         stopping := false, socket := Closed),
      endPart + [CloseChannel] + navPart)
  }

  /**
   * What the cleanup sends: END only when START went out on a channel that is still open,
   * exactly one close, and the move to the records tab only when a stop asked for it.
   */
  lemma CleanupOutput(s: Session)
    ensures SendEnd in Cleanup(s).out <==> s.startedSent && s.socket == Open
    ensures NavigateToRecords in Cleanup(s).out <==> s.navigateAfterStop
    ensures multiset(Cleanup(s).out)[CloseChannel] == 1
    ensures multiset(Cleanup(s).out)[SendEnd] <= 1
    ensures forall a :: a in Cleanup(s).out ==> a == SendEnd || a == CloseChannel || a == NavigateToRecords
  {
  }

  /**
   * The catch path: raise the failure alert unless the message is the benign stop race,
   * then clean up.
   */
  function Fail(s: Session, message: string): (t: Transition)
    ensures t.next == Cleanup(s).next
  {
    var c := Cleanup(s);
    var alert: seq<Action> := if IsBenign(message) then [] else [ShowAlert(RecordingFailed)];
    Transition(c.next, alert + c.out)
  }

  lemma FailOutput(s: Session, message: string)
    ensures ShowAlert(RecordingFailed) in Fail(s, message).out <==> !IsBenign(message)
    ensures multiset(Fail(s, message).out)[ShowAlert(RecordingFailed)] == (if IsBenign(message) then 0 else 1)
    ensures |Cleanup(s).out| <= |Fail(s, message).out|
    ensures Fail(s, message).out[|Fail(s, message).out| - |Cleanup(s).out|..] == Cleanup(s).out
    ensures forall a :: a in Fail(s, message).out ==> a == ShowAlert(RecordingFailed) || a in Cleanup(s).out
  {
    var t := Fail(s, message);
    var c := Cleanup(s);
    CleanupOutput(s);
    var alert: seq<Action> := if IsBenign(message) then [] else [ShowAlert(RecordingFailed)];
    assert t.out == alert + c.out;
    assert t.out[|alert|..] == c.out;
  }

  function OnStart(s: Session, camPerm: bool, micPerm: bool, cameraReady: bool, jwt: Option<string>): (t: Transition)
    // a second start while a session is under way does nothing
    ensures s.phase != Idle ==> t == Transition(s, [])
    // otherwise exactly one action: an alert naming the first failed check, or the connect
    ensures s.phase == Idle ==> |t.out| == 1
    ensures s.phase == Idle && StartRefusal(camPerm, micPerm, cameraReady, jwt).Some? ==>
      t.out == [ShowAlert(StartRefusal(camPerm, micPerm, cameraReady, jwt).value)] && t.next == s
    ensures s.phase == Idle && StartRefusal(camPerm, micPerm, cameraReady, jwt).None? ==>
      && t.out == [Connect(ConnectionUrl(jwt.value))]
      && t.next.phase == Dialing && !t.next.startedSent && !t.next.navigateAfterStop
  {
    if s.phase != Idle then Transition(s, [])
    else
      match StartRefusal(camPerm, micPerm, cameraReady, jwt)
      case Some(kind) => Transition(s, [ShowAlert(kind)])
      case None =>
        Transition(
          s.(phase := Dialing, startedSent := false, navigateAfterStop := false,
             stopping := false, socket := Connecting),
          [Connect(ConnectionUrl(jwt.value))])
  }

  /**
   * The cleanup as `driving.tsx` behaves when React re-renders during the close wait.
   * `setRecording(false)` ends the render in which `recording` was true, so the teardown
   * of the effect registered in that render runs and calls that render's `stopRecording`,
   * whose `recording` is still true: it raises the navigate-after-stop request before the
   * request is read. The wait gives the render time only while the channel is still open.
   * Kept to exhibit that defect; the machine runs Cleanup.
   */
  function CleanupAsWritten(s: Session): (t: Transition)
    ensures t.next == Cleanup(s).next
    ensures NavigateToRecords in t.out <==> s.navigateAfterStop || (s.recording && s.socket == Open)
  {
    var asked := s.navigateAfterStop || (s.recording && s.socket == Open);
    CleanupOutput(s.(navigateAfterStop := asked));
    Cleanup(s.(navigateAfterStop := asked))
  }

  /** The catch path as `driving.tsx` behaves under that re-render: the alert, then CleanupAsWritten. */
  function FailAsWritten(s: Session, message: string): (t: Transition)
    ensures t.next == Fail(s, message).next
    ensures ShowAlert(RecordingFailed) in t.out <==> !IsBenign(message)
    ensures NavigateToRecords in t.out <==> s.navigateAfterStop || (s.recording && s.socket == Open)
  {
    var asked := s.navigateAfterStop || (s.recording && s.socket == Open);
    FailOutput(s.(navigateAfterStop := asked), message);
    CleanupOutput(s.(navigateAfterStop := asked));
    Fail(s.(navigateAfterStop := asked), message)
  }

  /**
   * `startRecording`'s entry as `driving.tsx` writes it: the only reentrancy test is
   * `recording`, and `recording` rises only once START has gone out, so the test passes
   * while the first channel is still dialing. The screen's button is also disabled while
   * `stopping` is up, so a press after a stop, before the cleanup ends, cannot happen there;
   * the function does not model the button and would connect in that state. Kept to exhibit that defect; the machine
   * runs OnStart, which tests whether a session is under way.
   */
  function OnStartAsWritten(s: Session, camPerm: bool, micPerm: bool, cameraReady: bool, jwt: Option<string>): (t: Transition)
    ensures s.recording ==> t == Transition(s, [])
    ensures !s.recording && StartRefusal(camPerm, micPerm, cameraReady, jwt).None? ==>
      t.out == [Connect(ConnectionUrl(jwt.value))] && t.next.phase == Dialing
  {
    if s.recording then Transition(s, [])
    else
      match StartRefusal(camPerm, micPerm, cameraReady, jwt)
      case Some(kind) => Transition(s, [ShowAlert(kind)])
      case None =>
        Transition(
          s.(phase := Dialing, startedSent := false, navigateAfterStop := false,
             stopping := false, socket := Connecting),
          [Connect(ConnectionUrl(jwt.value))])
  }

  /** The channel opened: START goes out, `startedSent`, `recording` and the loop flag rise, the counter restarts. */
  function OnOpened(s: Session): (t: Transition)
    ensures s.phase != Dialing ==> t == Transition(s, [])
    ensures s.phase == Dialing ==>
      && t.out == [SendStart] && t.next.phase == WarmingUp
      && t.next.startedSent && t.next.recording && t.next.loop
      && t.next.elapsed == 0 && t.next.socket == Open
  {
    if s.phase != Dialing then Transition(s, [])
    else
      Transition(
        s.(phase := WarmingUp, startedSent := true, recording := true, elapsed := 0,
           loop := true, nextSeg := 0, socket := Open),
        [SendStart])
  }

  /** The warm-up ended: the loop's first test; record the first segment, or clean up if stopped meanwhile. */
  function OnWarmupDone(s: Session): (t: Transition)
    ensures s.phase != WarmingUp ==> t == Transition(s, [])
    ensures s.phase == WarmingUp && s.loop ==>
      t.out == [RecordSegment(s.nextSeg)] && t.next.phase == Awaiting(s.nextSeg)
    ensures s.phase == WarmingUp && !s.loop ==> t == Cleanup(s)
  {
    if s.phase != WarmingUp then Transition(s, [])
    else if !s.loop then Cleanup(s)
    else Transition(s.(phase := Awaiting(s.nextSeg), nextSeg := s.nextSeg + 1), [RecordSegment(s.nextSeg)])
  }

  /**
   * The awaited recording resolved. Without a URI it is an error; otherwise the
   * lookahead recording starts only if the loop flag is still up, and packaging begins.
   */
  function OnSegmentDone(s: Session, uri: string): (t: Transition)
    ensures !s.phase.Awaiting? ==> t == Transition(s, [])
    ensures s.phase.Awaiting? && uri == "" ==> t == Fail(s, NoUriMessage)
    ensures s.phase.Awaiting? && uri != "" ==>
      && t.next.phase == Packaging(s.phase.seg, uri, if s.loop then Some(s.nextSeg) else None)
      && t.out == (if s.loop then [RecordSegment(s.nextSeg)] else [])
  {
    match s.phase
    case Awaiting(seg) =>
      if uri == "" then Fail(s, NoUriMessage)
      else if s.loop then
        Transition(s.(phase := Packaging(seg, uri, Some(s.nextSeg)), nextSeg := s.nextSeg + 1),
                   [RecordSegment(s.nextSeg)])
      else
        Transition(s.(phase := Packaging(seg, uri, None)), [])
    case _ => Transition(s, [])
  }

  /**
   * The payload is ready: its frame goes out, then the loop test. While the flag is up
   * the loop awaits the lookahead (or records afresh if there is none); once it is down
   * the loop exits into cleanup and an already started lookahead is never awaited.
   */
  function OnPayloadReady(s: Session, zip: WsHelpers.ZipModule): (t: Transition)
    ensures !s.phase.Packaging? ==> t == Transition(s, [])
    ensures s.phase.Packaging? ==>
      && |t.out| >= 1
      && t.out[0] == SendFrame(s.phase.seg, WsHelpers.ZipSingleFileIfAvailable(s.phase.uri, zip))
    ensures s.phase.Packaging? && !s.loop ==> t.next == Cleanup(s).next && t.out[1..] == Cleanup(s).out
    ensures s.phase.Packaging? && s.loop && s.phase.lookahead.Some? ==>
      |t.out| == 1 && t.next.phase == Awaiting(s.phase.lookahead.value)
  {
    match s.phase
    case Packaging(seg, uri, lookahead) =>
      var frame := SendFrame(seg, WsHelpers.ZipSingleFileIfAvailable(uri, zip));
      if !s.loop then
        var c := Cleanup(s);
        assert ([frame] + c.out)[1..] == c.out;
        Transition(c.next, [frame] + c.out)
      else if lookahead.Some? then
        Transition(s.(phase := Awaiting(lookahead.value)), [frame])
      else
        Transition(s.(phase := Awaiting(s.nextSeg), nextSeg := s.nextSeg + 1),
                   [frame, RecordSegment(s.nextSeg)])
    case _ => Transition(s, [])
  }

  /** `stopRecording`: a no-op unless recording; otherwise it lowers the flags and asks for navigation. */
  function OnStop(s: Session): (t: Transition)
    ensures t.out == []
    ensures !s.recording ==> t.next == s
    ensures s.recording ==>
      && t.next.phase == s.phase && !t.next.loop && !t.next.recording
      && t.next.navigateAfterStop && t.next.stopping
      && t.next.startedSent == s.startedSent && t.next.socket == s.socket
  {
    if !s.recording then Transition(s, [])
    else Transition(s.(stopping := true, navigateAfterStop := true, loop := false, recording := false), [])
  }

  /** The one-second interval: it runs only while recording. */
  function OnTick(s: Session): (t: Transition)
    ensures t.out == []
    ensures t.next.elapsed == s.elapsed + (if s.recording then 1 else 0)
    ensures t.next.(elapsed := s.elapsed) == s
  {
    Transition(if s.recording then s.(elapsed := s.elapsed + 1) else s, [])
  }

  /** Whether `e` is the outcome of the await `startRecording` is suspended on in phase `p`. */
  predicate Awaited(p: Phase, e: Event) {
    match e
    case Opened => p == Dialing
    case ConnectFailed(_) => p == Dialing
    case WarmupDone => p == WarmingUp
    case SegmentDone(_) => p.Awaiting?
    case SegmentFailed(_) => p.Awaiting?
    case PayloadReady(_) => p.Packaging?
    case PayloadFailed(_) => p.Packaging?
    case _ => false
  }

  /** A rejection that lands in the catch block. */
  predicate IsFailure(e: Event) {
    e.ConnectFailed? || e.SegmentFailed? || e.PayloadFailed?
  }

  /**
   * One event. A rejected await lands in the catch path exactly when it is the await the
   * session is suspended on; outcomes of awaits not pending change nothing. A channel drop
   * emits nothing and only leaves OPEN.
   */
  function Step(s: Session, e: Event): (t: Transition)
    ensures IsFailure(e) && Awaited(s.phase, e) ==> t == Fail(s, e.message)
    ensures !Awaited(s.phase, e) && !e.StartPressed? && !e.StopPressed? && !e.Tick? && !e.SocketDropped? ==>
      t == Transition(s, [])
    ensures e.SocketDropped? ==>
      t == Transition(s.(socket := if s.socket == Open then Closed else s.socket), [])
  {
    match e
    case StartPressed(camPerm, micPerm, cameraReady, jwt) => OnStart(s, camPerm, micPerm, cameraReady, jwt)
    case Opened => OnOpened(s)
    case ConnectFailed(message) => if s.phase == Dialing then Fail(s, message) else Transition(s, [])
    case WarmupDone => OnWarmupDone(s)
    case SegmentDone(uri) => OnSegmentDone(s, uri)
    case SegmentFailed(message) => if s.phase.Awaiting? then Fail(s, message) else Transition(s, [])
    case PayloadReady(zip) => OnPayloadReady(s, zip)
    case PayloadFailed(message) => if s.phase.Packaging? then Fail(s, message) else Transition(s, [])
    case StopPressed => OnStop(s)
    case Tick => OnTick(s)
    case SocketDropped => Transition(if s.socket == Open then s.(socket := Closed) else s, [])
  }

  /** The machine run over a sequence of events: the final state and the whole trace. */
  function Run(s: Session, events: seq<Event>): (t: Transition)
    ensures events == [] ==> t == Transition(s, [])
    decreases |events|
  {
    if events == [] then Transition(s, [])
    else
      var first := Step(s, events[0]);
      var rest := Run(first.next, events[1..]);
      Transition(rest.next, first.out + rest.out)
  }

  /** `formatTime`: minutes and seconds, each padded to two digits, separated by ':'. */
  function FormatTime(n: nat): (r: string)
    ensures |r| >= 5 && r[|r| - 3] == ':'
    ensures n < 6000 ==> |r| == 5
    ensures AllDigits(r[..|r| - 3]) && AllDigits(r[|r| - 2..])
    ensures DigitsValue(r[..|r| - 3]) == n / 60 && DigitsValue(r[|r| - 2..]) == n % 60
  {
    var minutes := Pad2(n / 60);
    var seconds := Pad2(n % 60);
    var r := minutes + ":" + seconds;
    assert r[..|r| - 3] == minutes && r[|r| - 2..] == seconds;
    r
  }

  /** Reads a "M…M:SS" clock back into seconds; None for anything else, unpadded or over-padded groups included. */
  function ParseClock(r: string): Option<nat> {
    if |r| >= 5 && r[|r| - 3] == ':' && IsPadded2(r[..|r| - 3]) && IsPadded2(r[|r| - 2..])
       && DigitsValue(r[|r| - 2..]) < 60
    then Some(DigitsValue(r[..|r| - 3]) * 60 + DigitsValue(r[|r| - 2..]))
    else None
  }

  /** The displayed clock determines the elapsed seconds: reading it back gives the counter. */
  lemma FormatTimeRoundTrip(n: nat)
    ensures ParseClock(FormatTime(n)) == Some(n)
  {
    RenderedAreCanonical(n / 60);
    RenderedAreCanonical(n % 60);
  }

  /** The reader accepts only clocks the screen can show: what reads back as `n` is the clock of `n`. */
  lemma ParseClockInverse(r: string)
    requires ParseClock(r).Some?
    ensures r == FormatTime(ParseClock(r).value)
  {
    var mm, ss := r[..|r| - 3], r[|r| - 2..];
    var n := ParseClock(r).value;
    assert n / 60 == DigitsValue(mm) && n % 60 == DigitsValue(ss);
    assert r == mm + ":" + ss;
  }
}

=== FILE: driving_session_proofs.dfy ===
/**
 * Trace properties of the driving-session machine: every trace it emits follows the
 * backend protocol, stop is cooperative and idempotent, recording never resumes after
 * a stop, and navigation happens only for a user stop. The concrete scenarios: the first
 * frame follows START; a stop while recording sends that segment's frame and then END,
 * the close and the move to the records tab; a stop during packaging never sends the
 * lookahead; a denied microphone raises one alert; a failed connect raises the alert and
 * closes without END; the benign stop race raises nothing. Also the double-start defect
 * of `driving.tsx`'s start guard and the navigation after an error exit.
 */
module DrivingSessionProofs {
  import opened Wrappers
  import UriComponent
  import WsHelpers
  import opened DrivingProtocol
  import opened DrivingSession

  /** Facts every reachable state keeps; they tie the React states and refs to the phase. */
  predicate Inv(s: Session) {
    && s.recording == s.loop
    && s.stopping == s.navigateAfterStop
    && match s.phase
       case Idle => !s.loop && !s.navigateAfterStop && s.socket == Closed
       case Dialing => !s.loop && !s.navigateAfterStop && !s.startedSent && s.socket == Connecting
       case WarmingUp => s.startedSent && s.socket != Connecting && s.nextSeg == 0
       case Awaiting(seg) => s.startedSent && s.socket != Connecting && s.nextSeg == seg + 1
       case Packaging(seg, uri, lookahead) =>
         && s.startedSent && s.socket != Connecting && uri != ""
         && (s.loop ==> lookahead.Some?)
         && (lookahead.Some? ==> lookahead.value == seg + 1)
         && s.nextSeg == (if lookahead.Some? then seg + 2 else seg + 1)
  }

  /** The protocol state that corresponds to a session phase. */
  predicate MatchesPhase(s: Session, m: Monitor, alerted: bool) {
    match s.phase
    case Idle => m.Quiet?
    case Dialing => m == Dialed(alerted)
    case WarmingUp => m == Live(-1, -1, alerted)
    case Awaiting(seg) => m == Live(seg, seg - 1, alerted)
    case Packaging(seg, _, lookahead) =>
      m == Live(if lookahead.Some? then seg + 1 else seg, seg - 1, alerted)
  }

  predicate Matches(s: Session, m: Monitor) {
    MatchesPhase(s, m, false)
  }

  lemma InitialMatches()
    ensures Inv(Initial) && Matches(Initial, Fresh)
  {
  }

  /**
   * The cleanup always ends in a quiet, protocol-conforming state, from any point of a
   * session at which the channel was dialed and, if START went out, is still live.
   */
  lemma CleanupConforms(s: Session, m: Monitor)
    requires m.Live? || (m.Dialed? && !s.startedSent)
    ensures ObserveAll(m, Cleanup(s).out).Quiet?
    ensures Inv(Cleanup(s).next)
  {
    var sendEnd := s.startedSent && s.socket == Open;
    var endPart: seq<Action> := if sendEnd then [SendEnd] else [];
    var navPart: seq<Action> := if s.navigateAfterStop then [NavigateToRecords] else [];
    assert Cleanup(s).out == endPart + [CloseChannel] + navPart;
    ObserveAllAppend(m, endPart + [CloseChannel], navPart);
    ObserveAllAppend(m, endPart, [CloseChannel]);
    var m1 := ObserveAll(m, endPart);
    if sendEnd {
      ObserveOne(m, SendEnd);
      assert m1 == Ended;
    } else {
      assert m1 == m;
    }
    ObserveOne(m1, CloseChannel);
    var m2 := ObserveAll(m1, [CloseChannel]);
    assert m2 == Quiet(true);
    if s.navigateAfterStop {
      ObserveOne(m2, NavigateToRecords);
    }
  }

  /** The catch-and-finally path conforms too: at most one alert, then the cleanup. */
  lemma FailConforms(s: Session, m: Monitor, message: string)
    requires Inv(s) && s.phase != Idle && Matches(s, m)
    ensures ObserveAll(m, Fail(s, message).out).Quiet?
    ensures Inv(Fail(s, message).next)
  {
    var c := Cleanup(s);
    if IsBenign(message) {
      assert Fail(s, message).out == c.out;
      CleanupConforms(s, m);
    } else {
      assert Fail(s, message).out == [ShowAlert(RecordingFailed)] + c.out;
      ObserveAllAppend(m, [ShowAlert(RecordingFailed)], c.out);
      ObserveOne(m, ShowAlert(RecordingFailed));
      CleanupConforms(s, ObserveAll(m, [ShowAlert(RecordingFailed)]));
    }
  }

  lemma StartConforms(s: Session, m: Monitor, camPerm: bool, micPerm: bool, cameraReady: bool, jwt: Option<string>)
    requires Inv(s) && Matches(s, m)
    ensures Inv(OnStart(s, camPerm, micPerm, cameraReady, jwt).next)
    ensures Matches(OnStart(s, camPerm, micPerm, cameraReady, jwt).next,
                    ObserveAll(m, OnStart(s, camPerm, micPerm, cameraReady, jwt).out))
  {
    var t := OnStart(s, camPerm, micPerm, cameraReady, jwt);
    if s.phase == Idle {
      ObserveOne(m, t.out[0]);
    }
  }

  lemma OpenedConforms(s: Session, m: Monitor)
    requires Inv(s) && Matches(s, m)
    ensures Inv(OnOpened(s).next)
    ensures Matches(OnOpened(s).next, ObserveAll(m, OnOpened(s).out))
  {
    if s.phase == Dialing {
      ObserveOne(m, SendStart);
    }
  }

  lemma WarmupConforms(s: Session, m: Monitor)
    requires Inv(s) && Matches(s, m)
    ensures Inv(OnWarmupDone(s).next)
    ensures Matches(OnWarmupDone(s).next, ObserveAll(m, OnWarmupDone(s).out))
  {
    if s.phase == WarmingUp {
      if s.loop {
        ObserveOne(m, RecordSegment(s.nextSeg));
      } else {
        CleanupConforms(s, m);
      }
    }
  }

  lemma SegmentDoneConforms(s: Session, m: Monitor, uri: string)
    requires Inv(s) && Matches(s, m)
    ensures Inv(OnSegmentDone(s, uri).next)
    ensures Matches(OnSegmentDone(s, uri).next, ObserveAll(m, OnSegmentDone(s, uri).out))
  {
    if s.phase.Awaiting? {
      if uri == "" {
        FailConforms(s, m, NoUriMessage);
      } else if s.loop {
        ObserveOne(m, RecordSegment(s.nextSeg));
      }
    }
  }

  lemma PayloadReadyConforms(s: Session, m: Monitor, zip: WsHelpers.ZipModule)
    requires Inv(s) && Matches(s, m)
    ensures Inv(OnPayloadReady(s, zip).next)
    ensures Matches(OnPayloadReady(s, zip).next, ObserveAll(m, OnPayloadReady(s, zip).out))
  {
    if s.phase.Packaging? {
      var t := OnPayloadReady(s, zip);
      var frame := t.out[0];
      var m1 := Observe(m, frame);
      assert m1.Live? && m1.lastSent == s.phase.seg;
      assert [frame] + t.out[1..] == t.out;
      ObserveAllAppend(m, [frame], t.out[1..]);
      ObserveOne(m, frame);
      if !s.loop {
        CleanupConforms(s, m1);
      } else {
        assert t.out[1..] == [];
      }
    }
  }

  lemma StopConforms(s: Session, m: Monitor)
    requires Inv(s) && Matches(s, m)
    ensures Inv(OnStop(s).next)
    ensures Matches(OnStop(s).next, ObserveAll(m, OnStop(s).out))
  {
  }

  lemma TickConforms(s: Session, m: Monitor)
    requires Inv(s) && Matches(s, m)
    ensures Inv(OnTick(s).next)
    ensures Matches(OnTick(s).next, ObserveAll(m, OnTick(s).out))
  {
  }

  /** One step keeps the invariant and the correspondence with the protocol monitor. */
  lemma FailureConforms(s: Session, m: Monitor, e: Event)
    requires Inv(s) && Matches(s, m)
    requires e.ConnectFailed? || e.SegmentFailed? || e.PayloadFailed?
    ensures Inv(Step(s, e).next)
    ensures Matches(Step(s, e).next, ObserveAll(m, Step(s, e).out))
  {
    var failing := match e
      case ConnectFailed(_) => s.phase == Dialing
      case SegmentFailed(_) => s.phase.Awaiting?
      case _ => s.phase.Packaging?;
    if failing {
      FailConforms(s, m, e.message);
    } else {
      assert Step(s, e) == Transition(s, []);
    }
  }

  lemma DroppedConforms(s: Session, m: Monitor)
    requires Inv(s) && Matches(s, m)
    ensures Inv(Step(s, SocketDropped).next)
    ensures Matches(Step(s, SocketDropped).next, ObserveAll(m, Step(s, SocketDropped).out))
  {
  }

  lemma StepConforms(s: Session, m: Monitor, e: Event)
    requires Inv(s) && Matches(s, m)
    ensures Inv(Step(s, e).next)
    ensures Matches(Step(s, e).next, ObserveAll(m, Step(s, e).out))
  {
    match e
    case StartPressed(camPerm, micPerm, cameraReady, jwt) =>
      StartConforms(s, m, camPerm, micPerm, cameraReady, jwt);
    case Opened =>
      OpenedConforms(s, m);
    case ConnectFailed(_) =>
      FailureConforms(s, m, e);
    case WarmupDone =>
      WarmupConforms(s, m);
    case SegmentDone(uri) =>
      SegmentDoneConforms(s, m, uri);
    case SegmentFailed(_) =>
      FailureConforms(s, m, e);
    case PayloadReady(zip) =>
      PayloadReadyConforms(s, m, zip);
    case PayloadFailed(_) =>
      FailureConforms(s, m, e);
    case StopPressed =>
      StopConforms(s, m);
    case Tick =>
      TickConforms(s, m);
    case SocketDropped =>
      DroppedConforms(s, m);
  }

  /** Every run from the initial state conforms; what the machine emits always follows the protocol. */
  lemma {:induction false} RunConforms(s: Session, m: Monitor, events: seq<Event>)
    requires Inv(s) && Matches(s, m)
    ensures Inv(Run(s, events).next)
    ensures Matches(Run(s, events).next, ObserveAll(m, Run(s, events).out))
    decreases |events|
  {
    if events != [] {
      var first := Step(s, events[0]);
      StepConforms(s, m, events[0]);
      RunConforms(first.next, ObserveAll(m, first.out), events[1..]);
      ObserveAllAppend(m, first.out, Run(first.next, events[1..]).out);
    }
  }

  /**
   * The handshake: whatever the user and the platform do, the trace is START after the
   * connect, frames in recording order with at most one lookahead, END at most once and
   * only after START, one close per connect; once the screen is idle again every
   * connected channel has been closed and END was never sent more often than START.
   */
  lemma SessionTraceConforms(events: seq<Event>)
    ensures Conforms(Run(Initial, events).out)
    ensures Run(Initial, events).next.phase == Idle ==>
      && Connects(Run(Initial, events).out) == Count(Run(Initial, events).out, CloseChannel)
      && Count(Run(Initial, events).out, SendEnd) <= Count(Run(Initial, events).out, SendStart)
  {
    var t := Run(Initial, events);
    RunConforms(Initial, Fresh, events);
    ConnectsBalanceCloses(Fresh, t.out);
    EndsNeverExceedStarts(Fresh, t.out);
  }

  // ---------------------------------------------------------------------------
  // Stop: cooperative, idempotent, final
  // ---------------------------------------------------------------------------

  /** Pressing stop twice is pressing it once. */
  lemma StopTwiceIsStopOnce(s: Session)
    ensures Step(Step(s, StopPressed).next, StopPressed) == Transition(Step(s, StopPressed).next, [])
  {
  }

  /** No path of the catch-and-finally block records. */
  lemma FailRecordsNothing(s: Session, message: string)
    ensures !Fail(s, message).next.loop && Fail(s, message).next.phase == Idle
    ensures forall a :: a in Fail(s, message).out ==> !a.RecordSegment?
  {
  }

  lemma PayloadReadyKeepsLoopDown(s: Session, zip: WsHelpers.ZipModule)
    requires !s.loop && s.phase != Dialing
    ensures !OnPayloadReady(s, zip).next.loop && OnPayloadReady(s, zip).next.phase != Dialing
    ensures forall a :: a in OnPayloadReady(s, zip).out ==> !a.RecordSegment?
  {
    if s.phase.Packaging? {
      var t := OnPayloadReady(s, zip);
      assert t.out == [t.out[0]] + Cleanup(s).out;
    }
  }

  lemma SegmentDoneKeepsLoopDown(s: Session, uri: string)
    requires !s.loop && s.phase != Dialing
    ensures !OnSegmentDone(s, uri).next.loop && OnSegmentDone(s, uri).next.phase != Dialing
    ensures forall a :: a in OnSegmentDone(s, uri).out ==> !a.RecordSegment?
  {
    if s.phase.Awaiting? && uri == "" {
      FailRecordsNothing(s, NoUriMessage);
    }
  }

  /** A step taken with the loop flag down, other than a new start, records nothing and keeps the flag down. */
  lemma StepKeepsLoopDown(s: Session, e: Event)
    requires !s.loop && s.phase != Dialing && !e.StartPressed?
    ensures !Step(s, e).next.loop && Step(s, e).next.phase != Dialing
    ensures forall a :: a in Step(s, e).out ==> !a.RecordSegment?
  {
    match e
    case StartPressed(_, _, _, _) =>
    case Opened =>
    case ConnectFailed(message) =>
    case WarmupDone =>
    case SegmentDone(uri) =>
      SegmentDoneKeepsLoopDown(s, uri);
    case SegmentFailed(message) =>
      FailRecordsNothing(s, message);
    case PayloadReady(zip) =>
      PayloadReadyKeepsLoopDown(s, zip);
    case PayloadFailed(message) =>
      FailRecordsNothing(s, message);
    case StopPressed =>
    case Tick =>
    case SocketDropped =>
  }

  /** After a stop, no new segment is recorded until the user starts a new session. */
  lemma {:induction false} NoRecordingAfterStop(s: Session, events: seq<Event>)
    requires !s.loop && s.phase != Dialing
    requires forall i :: 0 <= i < |events| ==> !events[i].StartPressed?
    ensures forall a :: a in Run(s, events).out ==> !a.RecordSegment?
    decreases |events|
  {
    if events != [] {
      var first := Step(s, events[0]);
      StepKeepsLoopDown(s, events[0]);
      NoRecordingAfterStop(first.next, events[1..]);
    }
  }

  /** A step other than a stop never navigates and never asks for navigation. */
  lemma StepNavigatesOnlyForStop(s: Session, e: Event)
    requires !s.navigateAfterStop && !e.StopPressed?
    ensures !Step(s, e).next.navigateAfterStop
    ensures NavigateToRecords !in Step(s, e).out
  {
    match e
    case StartPressed(_, _, _, _) =>
    case Opened =>
    case ConnectFailed(message) =>
    case WarmupDone =>
    case SegmentDone(uri) =>
    case SegmentFailed(message) =>
    case PayloadReady(zip) =>
      if s.phase.Packaging? && !s.loop {
        var t := OnPayloadReady(s, zip);
        assert t.out == [t.out[0]] + Cleanup(s).out;
      }
    case PayloadFailed(message) =>
    case StopPressed =>
    case Tick =>
    case SocketDropped =>
  }

  /** Without a user stop the screen never moves to the records tab, errors included. */
  lemma {:induction false} NoNavigationWithoutStop(s: Session, events: seq<Event>)
    requires !s.navigateAfterStop
    requires forall i :: 0 <= i < |events| ==> !events[i].StopPressed?
    ensures NavigateToRecords !in Run(s, events).out
    decreases |events|
  {
    if events != [] {
      var first := Step(s, events[0]);
      StepNavigatesOnlyForStop(s, events[0]);
      NoNavigationWithoutStop(first.next, events[1..]);
    }
  }

  // ---------------------------------------------------------------------------
  // Scenarios of the driving screen
  // ---------------------------------------------------------------------------

  /** Start pressed with both permissions, a ready camera and the stored token `jwt`. */
  function Press(jwt: string): Event {
    StartPressed(true, true, true, Some(jwt))
  }

  /** A token of unreserved characters is sent after "Bearer%20" unchanged. */
  lemma ConnectionUrlOfPlainToken(jwt: string)
    requires forall i :: 0 <= i < |jwt| ==> UriComponent.Unreserved(jwt[i])
    ensures ConnectionUrl(jwt) == UrlPrefix + "Bearer%20" + jwt
  {
    EncodeBearer(jwt);
  }

  lemma EncodeBearer(jwt: string)
    requires forall i :: 0 <= i < |jwt| ==> UriComponent.Unreserved(jwt[i])
    ensures UriComponent.Encode("Bearer " + jwt) == "Bearer%20" + jwt
  {
    BearerSplit(jwt);
    UriComponent.EncodePlainPrefix("Bearer", " " + jwt);
    UriComponent.EncodeSpacePrefix(jwt);
    UriComponent.EncodeIdentityIff(jwt);
  }

  lemma BearerSplit(jwt: string)
    ensures forall i :: 0 <= i < |"Bearer"| ==> UriComponent.Unreserved("Bearer"[i])
    ensures "Bearer " + jwt == "Bearer" + (" " + jwt)
    ensures "Bearer" + ("%20" + jwt) == "Bearer%20" + jwt
  {
  }

  /** One more event in front of a run: its output comes first, then the rest's. */
  lemma RunCons(s: Session, e: Event, events: seq<Event>, mid: Session, first: seq<Action>)
    requires Step(s, e) == Transition(mid, first)
    ensures Run(s, [e] + events) == Transition(Run(mid, events).next, first + Run(mid, events).out)
  {
    assert ([e] + events)[1..] == events;
  }

  // The sessions the scenarios below pass through, field by field:
  // phase, recording, loop, startedSent, navigateAfterStop, stopping, elapsed, nextSeg, socket.
  const Connecting0: Session := Session(Dialing, false, false, false, false, false, 0, 0, Connecting)
  const Warming: Session := Session(WarmingUp, true, true, true, false, false, 0, 0, Open)
  const Recording0: Session := Session(Awaiting(0), true, true, true, false, false, 0, 1, Open)
  const Recording1: Session := Session(Awaiting(1), true, true, true, false, false, 0, 2, Open)
  const Stopped0: Session := Session(Awaiting(0), false, false, true, true, true, 0, 1, Open)

  function Packaging0(uri: string): Session {
    Session(Packaging(0, uri, Some(1)), true, true, true, false, false, 0, 2, Open)
  }

  function StoppedPackaging(uri: string, lookahead: Option<nat>, nextSeg: nat): Session {
    Session(Packaging(0, uri, lookahead), false, false, true, true, true, 0, nextSeg, Open)
  }

  function Finished(nextSeg: nat): Session {
    Session(Idle, false, false, true, false, false, 0, nextSeg, Closed)
  }

  lemma StepPress(jwt: string)
    requires jwt != ""
    ensures Step(Initial, Press(jwt)) == Transition(Connecting0, [Connect(ConnectionUrl(jwt))])
  {
  }

  lemma StepOpened()
    ensures Step(Connecting0, Opened) == Transition(Warming, [SendStart])
  {
  }

  lemma StepWarmup()
    ensures Step(Warming, WarmupDone) == Transition(Recording0, [RecordSegment(0)])
  {
  }

  lemma StepStop()
    ensures Step(Recording0, StopPressed) == Transition(Stopped0, [])
  {
  }

  lemma StepSegmentDone(uri: string)
    requires uri != ""
    ensures Step(Recording0, SegmentDone(uri)) == Transition(Packaging0(uri), [RecordSegment(1)])
  {
  }

  lemma StepFrame(uri: string)
    requires uri != ""
    ensures Step(Packaging0(uri), PayloadReady(WsHelpers.Unavailable)) == Transition(Recording1, [SendFrame(0, uri)])
  {
  }

  lemma StepTick()
    ensures Step(Recording1, Tick) == Transition(Recording1.(elapsed := 1), [])
  {
  }

  lemma StepStoppedSegmentDone(uri: string)
    requires uri != ""
    ensures Step(Stopped0, SegmentDone(uri)) == Transition(StoppedPackaging(uri, None, 1), [])
  {
  }

  lemma StepStopPackaging(uri: string)
    ensures Step(Packaging0(uri), StopPressed) == Transition(StoppedPackaging(uri, Some(1), 2), [])
  {
  }

  lemma CleanupStopped(uri: string, lookahead: Option<nat>, nextSeg: nat)
    ensures Cleanup(StoppedPackaging(uri, lookahead, nextSeg))
            == Transition(Finished(nextSeg), [SendEnd, CloseChannel, NavigateToRecords])
  {
  }

  lemma StepStoppedFrame(uri: string, lookahead: Option<nat>, nextSeg: nat)
    ensures Step(StoppedPackaging(uri, lookahead, nextSeg), PayloadReady(WsHelpers.Unavailable))
            == Transition(Finished(nextSeg), [SendFrame(0, uri), SendEnd, CloseChannel, NavigateToRecords])
  {
    CleanupStopped(uri, lookahead, nextSeg);
    assert WsHelpers.ZipSingleFileIfAvailable(uri, WsHelpers.Unavailable) == uri;
  }

  lemma StepBenignFailure(message: string)
    requires IsBenign(message)
    ensures Step(Stopped0, SegmentFailed(message)) == Transition(Finished(1), [SendEnd, CloseChannel, NavigateToRecords])
  {
    assert Cleanup(Stopped0) == Transition(Finished(1), [SendEnd, CloseChannel, NavigateToRecords]);
  }

  lemma StepConnectFailed(message: string)
    requires !IsBenign(message)
    ensures Step(Connecting0, ConnectFailed(message)) == Transition(Initial, [ShowAlert(RecordingFailed), CloseChannel])
  {
    assert Cleanup(Connecting0) == Transition(Initial, [CloseChannel]);
  }

  /**
   * Press, open and warm-up in front of `rest`: the channel is open, START is out, the first
   * segment records, and then `rest` runs from there.
   */
  lemma RunStart(jwt: string, rest: seq<Event>)
    requires jwt != ""
    ensures Run(Initial, [Press(jwt)] + ([Opened] + ([WarmupDone] + rest)))
            == Transition(Run(Recording0, rest).next,
                          [Connect(ConnectionUrl(jwt))] + ([SendStart] + ([RecordSegment(0)] + Run(Recording0, rest).out)))
  {
    StepPress(jwt);
    StepOpened();
    StepWarmup();
    RunCons(Warming, WarmupDone, rest, Recording0, [RecordSegment(0)]);
    RunCons(Connecting0, Opened, [WarmupDone] + rest, Warming, [SendStart]);
    RunCons(Initial, Press(jwt), [Opened] + ([WarmupDone] + rest), Connecting0, [Connect(ConnectionUrl(jwt))]);
  }

  lemma FirstFrameTail(uri: string)
    requires uri != ""
    ensures Run(Recording0, [SegmentDone(uri)] + ([PayloadReady(WsHelpers.Unavailable)] + [Tick]))
            == Transition(Recording1.(elapsed := 1), [RecordSegment(1)] + ([SendFrame(0, uri)] + []))
  {
    StepSegmentDone(uri);
    StepFrame(uri);
    StepTick();
    RunCons(Recording1, Tick, [], Recording1.(elapsed := 1), []);
    RunCons(Packaging0(uri), PayloadReady(WsHelpers.Unavailable), [Tick], Recording1, [SendFrame(0, uri)]);
    RunCons(Recording0, SegmentDone(uri), [PayloadReady(WsHelpers.Unavailable)] + [Tick],
            Packaging0(uri), [RecordSegment(1)]);
  }

  /**
   * Everything granted, one segment and one second of the clock: connect, START, the
   * first recording, its lookahead, the first frame; the counter reads 1.
   */
  lemma ScenarioFirstFrame(jwt: string, uri: string)
    requires jwt != "" && uri != ""
    ensures var t := Run(Initial, [Press(jwt), Opened, WarmupDone, SegmentDone(uri),
                                   PayloadReady(WsHelpers.Unavailable), Tick]);
      && t.out == [Connect(ConnectionUrl(jwt)), SendStart, RecordSegment(0), RecordSegment(1),
                   SendFrame(0, uri)]
      && t.next.elapsed == 1 && t.next.phase == Awaiting(1)
  {
    var rest := [SegmentDone(uri)] + ([PayloadReady(WsHelpers.Unavailable)] + [Tick]);
    FirstFrameTail(uri);
    RunStart(jwt, rest);
    assert [Press(jwt)] + ([Opened] + ([WarmupDone] + rest))
        == [Press(jwt), Opened, WarmupDone, SegmentDone(uri), PayloadReady(WsHelpers.Unavailable), Tick];
  }

  lemma StopWhileRecordingTail(uri: string)
    requires uri != ""
    ensures Run(Recording0, [StopPressed] + ([SegmentDone(uri)] + [PayloadReady(WsHelpers.Unavailable)]))
            == Transition(Finished(1), [SendFrame(0, uri), SendEnd, CloseChannel, NavigateToRecords])
  {
    var p := StoppedPackaging(uri, None, 1);
    StepStop();
    StepStoppedSegmentDone(uri);
    StepStoppedFrame(uri, None, 1);
    RunCons(p, PayloadReady(WsHelpers.Unavailable), [], Finished(1),
            [SendFrame(0, uri), SendEnd, CloseChannel, NavigateToRecords]);
    RunCons(Stopped0, SegmentDone(uri), [PayloadReady(WsHelpers.Unavailable)], p, []);
    RunCons(Recording0, StopPressed, [SegmentDone(uri)] + [PayloadReady(WsHelpers.Unavailable)], Stopped0, []);
  }

  /**
   * Stop pressed while a segment records: that segment still finishes and its frame is
   * sent, then END, close and the move to the records tab; no further segment starts.
   */
  lemma ScenarioStopWhileRecording(jwt: string, uri: string)
    requires jwt != "" && uri != ""
    ensures var t := Run(Initial, [Press(jwt), Opened, WarmupDone, StopPressed,
                                   SegmentDone(uri), PayloadReady(WsHelpers.Unavailable)]);
      && t.out == [Connect(ConnectionUrl(jwt)), SendStart, RecordSegment(0), SendFrame(0, uri),
                   SendEnd, CloseChannel, NavigateToRecords]
      && t.next.phase == Idle && !t.next.recording
  {
    var rest := [StopPressed] + ([SegmentDone(uri)] + [PayloadReady(WsHelpers.Unavailable)]);
    StopWhileRecordingTail(uri);
    RunStart(jwt, rest);
    assert [Press(jwt)] + ([Opened] + ([WarmupDone] + rest))
        == [Press(jwt), Opened, WarmupDone, StopPressed, SegmentDone(uri), PayloadReady(WsHelpers.Unavailable)];
  }

  lemma StopWhilePackagingTail(uri: string)
    requires uri != ""
    ensures Run(Recording0, [SegmentDone(uri)] + ([StopPressed] + [PayloadReady(WsHelpers.Unavailable)]))
            == Transition(Finished(2), [RecordSegment(1)] + [SendFrame(0, uri), SendEnd, CloseChannel, NavigateToRecords])
  {
    var q := StoppedPackaging(uri, Some(1), 2);
    StepSegmentDone(uri);
    StepStopPackaging(uri);
    StepStoppedFrame(uri, Some(1), 2);
    RunCons(q, PayloadReady(WsHelpers.Unavailable), [], Finished(2),
            [SendFrame(0, uri), SendEnd, CloseChannel, NavigateToRecords]);
    RunCons(Packaging0(uri), StopPressed, [PayloadReady(WsHelpers.Unavailable)], q, []);
    RunCons(Recording0, SegmentDone(uri), [StopPressed] + [PayloadReady(WsHelpers.Unavailable)],
            Packaging0(uri), [RecordSegment(1)]);
  }

  /**
   * Stop pressed while a frame is being packaged: the loop exits after that frame and the
   * lookahead segment, already recording, is never sent.
   */
  lemma ScenarioStopWhilePackaging(jwt: string, uri: string)
    requires jwt != "" && uri != ""
    ensures var t := Run(Initial, [Press(jwt), Opened, WarmupDone, SegmentDone(uri),
                                   StopPressed, PayloadReady(WsHelpers.Unavailable)]);
      && t.out == [Connect(ConnectionUrl(jwt)), SendStart, RecordSegment(0), RecordSegment(1),
                   SendFrame(0, uri), SendEnd, CloseChannel, NavigateToRecords]
      && t.next.phase == Idle
  {
    var rest := [SegmentDone(uri)] + ([StopPressed] + [PayloadReady(WsHelpers.Unavailable)]);
    StopWhilePackagingTail(uri);
    RunStart(jwt, rest);
    assert [Press(jwt)] + ([Opened] + ([WarmupDone] + rest))
        == [Press(jwt), Opened, WarmupDone, SegmentDone(uri), StopPressed, PayloadReady(WsHelpers.Unavailable)];
  }

  /** Microphone permission denied: one alert, no channel, still idle. */
  lemma ScenarioMicrophoneDenied(jwt: Option<string>)
    ensures Run(Initial, [StartPressed(true, false, true, jwt)])
            == Transition(Initial, [ShowAlert(PermissionNeeded)])
  {
    var events := [StartPressed(true, false, true, jwt)];
    assert Run(Initial, events[1..]) == Transition(Initial, []);
  }

  /** The connect throws: one alert, one close, no END since START never went out, idle again. */
  lemma ScenarioConnectFails(jwt: string, message: string)
    requires jwt != "" && !IsBenign(message)
    ensures var t := Run(Initial, [Press(jwt), ConnectFailed(message)]);
      && t.out == [Connect(ConnectionUrl(jwt)), ShowAlert(RecordingFailed), CloseChannel]
      && t.next.phase == Idle
  {
    StepPress(jwt);
    StepConnectFailed(message);
    RunCons(Connecting0, ConnectFailed(message), [], Initial, [ShowAlert(RecordingFailed), CloseChannel]);
    RunCons(Initial, Press(jwt), [ConnectFailed(message)], Connecting0, [Connect(ConnectionUrl(jwt))]);
    assert [Press(jwt), ConnectFailed(message)] == [Press(jwt)] + [ConnectFailed(message)];
  }

  lemma BenignRaceTail(message: string)
    requires IsBenign(message)
    ensures Run(Recording0, [StopPressed] + [SegmentFailed(message)])
            == Transition(Finished(1), [SendEnd, CloseChannel, NavigateToRecords])
  {
    StepStop();
    StepBenignFailure(message);
    RunCons(Stopped0, SegmentFailed(message), [], Finished(1), [SendEnd, CloseChannel, NavigateToRecords]);
    RunCons(Recording0, StopPressed, [SegmentFailed(message)], Stopped0, []);
  }

  /** A stop that races the segment's completion: the rejection is silent and cleanup runs in full. */
  lemma ScenarioBenignRace(jwt: string, message: string)
    requires jwt != "" && IsBenign(message)
    ensures var t := Run(Initial, [Press(jwt), Opened, WarmupDone, StopPressed, SegmentFailed(message)]);
      && t.out == [Connect(ConnectionUrl(jwt)), SendStart, RecordSegment(0), SendEnd, CloseChannel, NavigateToRecords]
      && t.next.phase == Idle
  {
    var rest := [StopPressed] + [SegmentFailed(message)];
    BenignRaceTail(message);
    RunStart(jwt, rest);
    assert [Press(jwt)] + ([Opened] + ([WarmupDone] + rest))
        == [Press(jwt), Opened, WarmupDone, StopPressed, SegmentFailed(message)];
  }

  /** The rejection text of the camera's stop race is benign; the missing-URI rejection is not. */
  lemma BenignClassification()
    ensures IsBenign("Recording was " + BenignMarker + " could be produced.")
    ensures !IsBenign(NoUriMessage)
  {
    var m := "Recording was " + BenignMarker + " could be produced.";
    assert m[14..14 + |BenignMarker|] == BenignMarker;
    assert OccursAt(m, BenignMarker, 14);
    ContainsIff(m, BenignMarker);
  }

  // ---------------------------------------------------------------------------
  // The double start
  // ---------------------------------------------------------------------------

  /**
   * With `driving.tsx`'s guard, a second press while the first channel is still dialing
   * passes (`recording` is still false) and connects a second channel, which the protocol
   * forbids.
   */
  lemma DoubleStartAsWritten(jwt: string)
    requires jwt != ""
    ensures var first := OnStart(Initial, true, true, true, Some(jwt));
            var second := OnStartAsWritten(first.next, true, true, true, Some(jwt));
      && first.next.phase == Dialing && !first.next.recording
      && second.out == first.out
      && !Conforms(first.out + second.out)
  {
    var url := ConnectionUrl(jwt);
    assert [Connect(url)] + [Connect(url)] == [Connect(url), Connect(url)];
    ObserveAllAppend(Fresh, [Connect(url)], [Connect(url)]);
    ObserveOne(Fresh, Connect(url));
    ObserveOne(Dialed(false), Connect(url));
    ViolationIsFinal([]);
  }

  /** With the session guard, the second press does nothing. */
  lemma DoubleStartCorrected(jwt: string)
    requires jwt != ""
    ensures var first := OnStart(Initial, true, true, true, Some(jwt));
            var second := OnStart(first.next, true, true, true, Some(jwt));
      && second == Transition(first.next, [])
      && Conforms(first.out + second.out)
  {
    var first := OnStart(Initial, true, true, true, Some(jwt));
    assert first.out + [] == first.out;
    ObserveOne(Fresh, first.out[0]);
  }

  // ---------------------------------------------------------------------------
  // The error exit
  // ---------------------------------------------------------------------------

  /**
   * As `driving.tsx` behaves, a session that starts and whose first segment fails with a
   * real error, with no stop pressed anywhere, raises the alert and then moves to the
   * records tab: the program's counterpart of NoNavigationWithoutStop fails.
   */
  lemma ErrorExitAsWritten(jwt: string, message: string)
    requires jwt != "" && !IsBenign(message)
    ensures var start := Run(Initial, [Press(jwt), Opened, WarmupDone]);
      && start == Transition(Recording0, [Connect(ConnectionUrl(jwt)), SendStart, RecordSegment(0)])
      && FailAsWritten(start.next, message)
         == Transition(Finished(1), [ShowAlert(RecordingFailed), SendEnd, CloseChannel, NavigateToRecords])
  {
    RunStart(jwt, []);
    assert [Press(jwt)] + ([Opened] + ([WarmupDone] + [])) == [Press(jwt), Opened, WarmupDone];
    assert Cleanup(Recording0.(navigateAfterStop := true)) == Transition(Finished(1), [SendEnd, CloseChannel, NavigateToRecords]);
  }

  /** With the machine's cleanup, the same run and failure raise the alert, end the session and stay on the screen. */
  lemma ErrorExitCorrected(jwt: string, message: string)
    requires jwt != "" && !IsBenign(message)
    ensures var start := Run(Initial, [Press(jwt), Opened, WarmupDone]);
      && start.next == Recording0
      && Step(start.next, SegmentFailed(message))
         == Transition(Finished(1), [ShowAlert(RecordingFailed), SendEnd, CloseChannel])
  {
    RunStart(jwt, []);
    assert [Press(jwt)] + ([Opened] + ([WarmupDone] + [])) == [Press(jwt), Opened, WarmupDone];
    assert Cleanup(Recording0) == Transition(Finished(1), [SendEnd, CloseChannel]);
  }
}

=== FILE: my_page.dfy ===
/**
 * The derived values of the "my page" screen: the driving-time label, the gender label,
 * the join date, the clamped safe score and the numeric defaults, all computed from the
 * profile record the server returned (or from no record at all).
 */
module MyPage {
  import opened Wrappers
  import opened Decimal

  /** A JSON value as the profile endpoint may deliver it; `Absent` is `undefined`. */
  datatype Value = Absent | Null | Bool(b: bool) | Num(n: int) | Str(s: string)

  /** JavaScript truthiness (numbers are integers here, so NaN does not arise). */
  predicate Truthy(v: Value) {
    match v
    case Absent => false
    case Null => false
    case Bool(b) => b
    case Num(n) => n != 0
    case Str(s) => s != ""
  }

  /** `v || fallback`: the value itself when truthy, otherwise the fallback text. */
  function Or(v: Value, fallback: string): (r: Value)
    ensures Truthy(v) ==> r == v
    ensures !Truthy(v) ==> r == Str(fallback)
    // a non-empty fallback makes the result truthy
    ensures Truthy(r) <==> Truthy(v) || fallback != ""
  {
    if Truthy(v) then v else Str(fallback)
  }

  /**
   * The text React Native draws for a value placed as a `<Text>` child: nothing for
   * `undefined`, `null` and booleans, the decimal numeral for a number, the string itself.
   */
  function Shown(v: Value): (r: string)
    ensures r == "" <==> v.Absent? || v.Null? || v.Bool? || v == Str("")
    ensures v.Str? ==> r == v.s
  {
    match v
    case Absent => ""
    case Null => ""
    case Bool(_) => ""
    case Num(n) => if n < 0 then "-" + NatToString(-n) else NatToString(n)
    case Str(s) => s
  }

  /**
   * Under a non-empty fallback, `v || fallback` draws some text, except for `true`: it is
   * truthy, so it is kept, and React draws a boolean as nothing.
   */
  lemma OrShown(v: Value, fallback: string)
    requires fallback != ""
    ensures Shown(Or(v, fallback)) == "" <==> v == Bool(true)
  {
  }

  /** Falling back twice is falling back once, and a fallback never replaces a shown value. */
  lemma OrIdempotent(v: Value, fallback: string)
    requires fallback != ""
    ensures Or(Or(v, fallback), fallback) == Or(v, fallback)
    ensures Or(v, fallback) == v <==> Truthy(v) || v == Str(fallback)
  {
  }

  /** `typeof v === "number" ? v : 0`. */
  function NumberOr0(v: Value): (r: int)
    ensures v.Num? ==> r == v.n
    ensures !v.Num? ==> r == 0
  {
    if v.Num? then v.n else 0
  }

  // ---------------------------------------------------------------------------
  // Total driving time, "h시간 m분" or "m분"
  // ---------------------------------------------------------------------------

  /** The hour word and the space that follows it in the label. */
  const HourSep: string := "시간 "
  const MinuteWord: string := "분"

  /** The label of whole hours and minutes: "h시간 m분" when there are hours, otherwise "m분". */
  function DurationText(h: nat, m: nat): (r: string)
    ensures |r| >= 2 && r[|r| - 1..] == MinuteWord
  {
    if h > 0 then NatToString(h) + (HourSep + (NatToString(m) + MinuteWord))
    else NatToString(m) + MinuteWord
  }

  /**
   * The accumulated driving time in seconds as hours and minutes; leftover seconds are
   * dropped, and zero or negative input shows "0분".
   */
  function FormatTotalDrivingTime(seconds: int): (r: string)
    ensures |r| >= 2 && r[|r| - 1..] == MinuteWord
  {
    if seconds <= 0 then "0" + MinuteWord
    else DurationText(seconds / 3600, (seconds % 3600) / 60)
  }

  /** Number of leading decimal digits. */
  function LeadingDigits(s: string): (k: nat)
    ensures k <= |s| && AllDigits(s[..k])
    ensures k < |s| ==> !IsDigit(s[k])
  {
    if s != [] && IsDigit(s[0]) then
      var k := 1 + LeadingDigits(s[1..]);
      assert s[..k] == [s[0]] + s[1..][..k - 1];
      k
    else 0
  }

  /** Reads "m분" back into the minutes; None for anything else, zero-padded numerals included. */
  function ParseMinutes(t: string): Option<nat> {
    var j := LeadingDigits(t);
    if j > 0 && IsNumeral(t[..j]) && t[j..] == MinuteWord then Some(DigitsValue(t[..j])) else None
  }

  /** What follows the leading number `a`: "분" alone, or, for a positive `a`, "시간 " and the minutes. */
  function ParseAfterNumber(a: nat, rest: string): Option<(nat, nat)> {
    if rest == MinuteWord then Some((0, a))
    else if a > 0 && |rest| > 3 && rest[..3] == HourSep then
      match ParseMinutes(rest[3..])
      case Some(m) => Some((a, m))
      case None => None
    else None
  }

  /** Reads "h시간 m분" or "m분" back into (hours, minutes); None for anything else. */
  function ParseDuration(r: string): Option<(nat, nat)> {
    var k := LeadingDigits(r);
    if k == 0 || !IsNumeral(r[..k]) then None else ParseAfterNumber(DigitsValue(r[..k]), r[k..])
  }

  /** A numeral followed by a non-digit: exactly the numeral is read as leading digits. */
  lemma {:induction false} LeadingDigitsOfNumeral(d: string, t: string)
    requires AllDigits(d) && (t == [] || !IsDigit(t[0]))
    ensures LeadingDigits(d + t) == |d|
  {
    if d != [] {
      assert (d + t)[0] == d[0];
      assert (d + t)[1..] == d[1..] + t;
      LeadingDigitsOfNumeral(d[1..], t);
    } else {
      assert d + t == t;
    }
  }

  /** A numeral followed by "분": the digits read back as the number, then the word. */
  lemma NumeralThenMinute(m: nat)
    ensures var d := NatToString(m);
      && LeadingDigits(d + MinuteWord) == |d|
      && (d + MinuteWord)[..|d|] == d && (d + MinuteWord)[|d|..] == MinuteWord
      && IsNumeral(d) && DigitsValue(d) == m
  {
    var d := NatToString(m);
    LeadingDigitsOfNumeral(d, MinuteWord);
    assert (d + MinuteWord)[..|d|] == d;
    RenderedAreCanonical(m);
  }

  lemma ParseMinutesOnly(m: nat)
    ensures ParseDuration(NatToString(m) + MinuteWord) == Some((0, m))
    ensures ParseMinutes(NatToString(m) + MinuteWord) == Some(m)
  {
    NumeralThenMinute(m);
  }

  /** After positive hours, the hour word, a space and the minutes read back as both numbers. */
  lemma ParseAfterHours(h: nat, t: string, m: nat)
    requires h > 0 && ParseMinutes(t) == Some(m)
    ensures ParseAfterNumber(h, HourSep + t) == Some((h, m))
  {
    var rest := HourSep + t;
    assert |HourSep| == 3 && |MinuteWord| == 1;
    assert rest[..3] == HourSep && rest[3..] == t;
  }

  /** A numeral followed by text that does not start with a digit: the number, then the text. */
  lemma ParseNumberThen(d: string, rest: string)
    requires d != [] && IsNumeral(d) && (rest == [] || !IsDigit(rest[0]))
    ensures ParseDuration(d + rest) == ParseAfterNumber(DigitsValue(d), rest)
  {
    LeadingDigitsOfNumeral(d, rest);
    assert (d + rest)[..|d|] == d && (d + rest)[|d|..] == rest;
  }

  lemma ParseHoursAndMinutes(h: nat, m: nat)
    requires h > 0
    ensures ParseDuration(NatToString(h) + (HourSep + (NatToString(m) + MinuteWord))) == Some((h, m))
  {
    var t := NatToString(m) + MinuteWord;
    assert (HourSep + t)[0] == HourSep[0];
    RenderedAreCanonical(h);
    ParseNumberThen(NatToString(h), HourSep + t);
    ParseMinutesOnly(m);
    ParseAfterHours(h, t, m);
  }

  /** Every label of whole hours and minutes reads back as those numbers. */
  lemma ParseDurationText(h: nat, m: nat)
    ensures ParseDuration(DurationText(h, m)) == Some((h, m))
  {
    if h > 0 {
      ParseHoursAndMinutes(h, m);
    } else {
      ParseMinutesOnly(m);
    }
  }

  /** Minutes text that parses is exactly the numeral of its value followed by "분". */
  lemma ParseMinutesInverse(t: string)
    requires ParseMinutes(t).Some?
    ensures t == NatToString(ParseMinutes(t).value) + MinuteWord
  {
    var j := LeadingDigits(t);
    assert t == t[..j] + t[j..];
  }

  /** What the parser accepts after the number `a`, put back behind the numeral of `a`, is the label. */
  lemma ParseAfterNumberInverse(a: nat, rest: string)
    requires ParseAfterNumber(a, rest).Some?
    ensures var (h, m) := ParseAfterNumber(a, rest).value; NatToString(a) + rest == DurationText(h, m)
  {
    if rest != MinuteWord {
      var t := rest[3..];
      ParseMinutesInverse(t);
      assert rest == HourSep + t;
    }
  }

  /**
   * The parser accepts nothing but the labels themselves: a text that reads back as
   * (h, m) is the label of (h, m), so no other text can pass for it.
   */
  lemma ParseDurationInverse(r: string)
    requires ParseDuration(r).Some?
    ensures var (h, m) := ParseDuration(r).value; r == DurationText(h, m)
  {
    var k := LeadingDigits(r);
    assert r == r[..k] + r[k..];
    ParseAfterNumberInverse(DigitsValue(r[..k]), r[k..]);
  }

  /**
   * What the label means: it reads back as whole hours and minutes, the minutes are below
   * 60, and together they cover the input up to less than one minute.
   */
  lemma FormatTotalDrivingTimeMeaning(seconds: int)
    ensures ParseDuration(FormatTotalDrivingTime(seconds)).Some?
    ensures var (h, m) := ParseDuration(FormatTotalDrivingTime(seconds)).value;
      && m < 60
      && (seconds <= 0 ==> h == 0 && m == 0)
      && (seconds > 0 ==> h * 3600 + m * 60 <= seconds < h * 3600 + m * 60 + 60)
      && (h > 0 <==> seconds >= 3600)
  {
    if seconds <= 0 {
      assert NatToString(0) == "0";
      ParseDurationText(0, 0);
    } else {
      ParseDurationText(seconds / 3600, (seconds % 3600) / 60);
    }
  }

  /**
   * Those facts single the label out: any text that reads back as hours and minutes
   * meeting them is the label the screen shows.
   */
  lemma FormatTotalDrivingTimeDetermined(seconds: int, text: string, h: nat, m: nat)
    requires ParseDuration(text) == Some((h, m)) && m < 60
    requires seconds <= 0 ==> h == 0 && m == 0
    requires seconds > 0 ==> h * 3600 + m * 60 <= seconds < h * 3600 + m * 60 + 60
    ensures text == FormatTotalDrivingTime(seconds)
  {
    ParseDurationInverse(text);
    if seconds <= 0 {
      assert NatToString(0) == "0";
    } else {
      assert seconds - h * 3600 < 3600;
      assert seconds / 3600 == h;
      assert seconds % 3600 == seconds - h * 3600;
      assert (seconds % 3600) / 60 == m;
    }
  }

  lemma MinutesSplit(s: int)
    requires s >= 0
    ensures s / 3600 == (s / 60) / 60
    ensures (s % 3600) / 60 == (s / 60) % 60
  {
    var q := s / 60;
    assert s == q * 60 + s % 60;
    assert q == (q / 60) * 60 + q % 60;
    assert s == (q / 60) * 3600 + (q % 60) * 60 + s % 60;
  }

  /** Two positive durations get the same label exactly when they agree in whole minutes. */
  lemma FormatTotalDrivingTimeMinuteGranularity(a: int, b: int)
    requires a > 0 && b > 0
    ensures FormatTotalDrivingTime(a) == FormatTotalDrivingTime(b) <==> a / 60 == b / 60
  {
    MinutesSplit(a);
    MinutesSplit(b);
    if FormatTotalDrivingTime(a) == FormatTotalDrivingTime(b) {
      FormatTotalDrivingTimeMeaning(a);
      FormatTotalDrivingTimeMeaning(b);
      var (h, m) := ParseDuration(FormatTotalDrivingTime(a)).value;
      assert a / 60 == h * 60 + m;
      assert b / 60 == h * 60 + m;
    }
  }

  // ---------------------------------------------------------------------------
  // Gender label, join date, safe score
  // ---------------------------------------------------------------------------

  const Male: string := "남성"
  const Female: string := "여성"

  /**
   * The gender as shown: the two server codes get Korean words, any other truthy value
   * is shown as it is, and a missing or empty one shows "-".
   */
  function GenderLabel(gender: Value): (r: Value)
    ensures Truthy(r)
    ensures r == Str(Male) <==> gender == Str("MALE") || gender == Str(Male)
    ensures r == Str(Female) <==> gender == Str("FEMALE") || gender == Str(Female)
    ensures r == gender <==> Truthy(gender) && gender != Str("MALE") && gender != Str("FEMALE")
    ensures r == Str("-") <==> !Truthy(gender) || gender == Str("-")
  {
    if gender == Str("MALE") then Str(Male)
    else if gender == Str("FEMALE") then Str(Female)
    else Or(gender, "-")
  }

  /**
   * `createdAt ? createdAt.slice(0, 10) : "-"`; None when the value is truthy but not a
   * string, where the call to `slice` throws.
   */
  function JoinedAt(createdAt: Value): (r: Option<string>)
    ensures !Truthy(createdAt) ==> r == Some("-")
    ensures Truthy(createdAt) && !createdAt.Str? ==> r == None
    ensures createdAt.Str? && createdAt.s != "" ==>
      && r.Some?
      && |r.value| == (if |createdAt.s| < 10 then |createdAt.s| else 10)
      && r.value == createdAt.s[..|r.value|]
  {
    if !Truthy(createdAt) then Some("-")
    else match createdAt
      case Str(s) => Some(s[..if |s| < 10 then |s| else 10])
      case _ => None
  }

  /** An ISO timestamp shows its date part. */
  lemma JoinedAtOfTimestamp(date: string, time: string)
    requires |date| == 10
    ensures JoinedAt(Str(date + time)) == Some(date)
  {
    assert (date + time)[..10] == date;
  }

  /** `Math.min(Math.max(x, 0), 100)`. */
  function Clamp(x: int): (r: int)
    ensures 0 <= r <= 100
    ensures 0 <= x <= 100 ==> r == x
    ensures x < 0 ==> r == 0
    ensures x > 100 ==> r == 100
  {
    var lower := if x > 0 then x else 0;
    if lower < 100 then lower else 100
  }

  /** Clamping keeps the order of scores and changes nothing the second time. */
  lemma ClampMonotoneIdempotent(x: int, y: int)
    requires x <= y
    ensures Clamp(x) <= Clamp(y)
    ensures Clamp(Clamp(x)) == Clamp(x)
  {
  }

  // ---------------------------------------------------------------------------
  // The screen as a whole
  // ---------------------------------------------------------------------------

  datatype Profile = Profile(
    nickname: Value,
    loginId: Value,
    gender: Value,
    birthDate: Value,
    createdAt: Value,
    safeScore: Value,
    totalDrivingCount: Value,
    totalDrivingTime: Value)

  /** What `profile?.field` reads when there is no profile. */
  const NoProfile: Profile := Profile(Absent, Absent, Absent, Absent, Absent, Absent, Absent, Absent)

  datatype Display = Display(
    name: Value,
    handle: Value,
    drivingCount: int,
    drivingTime: string,
    score: int,
    gender: Value,
    birthDate: Value,
    joined: Option<string>)

  /** Every value the screen shows once loading has finished. */
  function View(profile: Option<Profile>): (d: Display)
    ensures 0 <= d.score <= 100
    ensures Truthy(d.name) && Truthy(d.handle) && Truthy(d.gender) && Truthy(d.birthDate)
  {
    var p := profile.GetOr(NoProfile);
    Display(
      Or(p.nickname, "안전운전자"),
      Or(p.loginId, "safedriver123"),
      NumberOr0(p.totalDrivingCount),
      FormatTotalDrivingTime(NumberOr0(p.totalDrivingTime)),
      Clamp(NumberOr0(p.safeScore)),
      GenderLabel(p.gender),
      Or(p.birthDate, "-"),
      JoinedAt(p.createdAt))
  }

  /**
   * The name, the handle after its `@`, the gender and the birth date draw some text for
   * every profile, except a field the server sent as `true`, which draws as nothing.
   */
  lemma ViewShown(p: Profile)
    ensures var d := View(Some(p));
      && (Shown(d.name) == "" <==> p.nickname == Bool(true))
      && (Shown(d.handle) == "" <==> p.loginId == Bool(true))
      && (Shown(d.gender) == "" <==> p.gender == Bool(true))
      && (Shown(d.birthDate) == "" <==> p.birthDate == Bool(true))
  {
    OrShown(p.nickname, "안전운전자");
    OrShown(p.loginId, "safedriver123");
    OrShown(p.birthDate, "-");
    if p.gender != Str("MALE") && p.gender != Str("FEMALE") {
      OrShown(p.gender, "-");
    }
  }

  /** With no profile every field shows its fallback: nothing is read from the server. */
  lemma ViewWithoutProfile()
    ensures View(None) == View(Some(NoProfile))
    ensures View(None) == Display(Str("안전운전자"), Str("safedriver123"), 0, "0" + MinuteWord, 0,
                                  Str("-"), Str("-"), Some("-"))
  {
  }

  /** A field the server sent as a non-number counts as zero, exactly like a missing one. */
  lemma NonNumbersCountAsZero(p: Profile)
    requires !p.totalDrivingCount.Num? && !p.totalDrivingTime.Num? && !p.safeScore.Num?
    ensures View(Some(p)).drivingCount == 0
    ensures View(Some(p)).drivingTime == FormatTotalDrivingTime(0)
    ensures View(Some(p)).score == 0
  {
  }
}

=== FILE: signup.dfy ===
/**
 * The sign-up form: its fields and how the controls change them, the submit validation
 * chain, and the birth-date text shown on the date button.
 */
module Signup {
  import opened Wrappers
  import opened Decimal

  // ---------------------------------------------------------------------------
  // String.prototype.trim
  // ---------------------------------------------------------------------------

  /** ECMAScript WhiteSpace and LineTerminator code points, which `trim` removes. */
  predicate IsJsSpace(c: char) {
    || c == '\U{0009}' || c == '\U{000A}' || c == '\U{000B}' || c == '\U{000C}' || c == '\U{000D}'
    || c == '\U{0020}' || c == '\U{00A0}' || c == '\U{1680}' || ('\U{2000}' <= c <= '\U{200A}')
    || c == '\U{2028}' || c == '\U{2029}' || c == '\U{202F}' || c == '\U{205F}' || c == '\U{3000}'
    || c == '\U{FEFF}'
  }

  function TrimStart(s: string): (r: string)
    ensures |r| <= |s| && r == s[|s| - |r|..]
    ensures r == [] || !IsJsSpace(r[0])
    ensures forall i :: 0 <= i < |s| - |r| ==> IsJsSpace(s[i])
  {
    if s != [] && IsJsSpace(s[0]) then TrimStart(s[1..]) else s
  }

  function TrimEnd(s: string): (r: string)
    ensures |r| <= |s| && r == s[..|r|]
    ensures r == [] || !IsJsSpace(r[|r| - 1])
    ensures forall i :: |r| <= i < |s| ==> IsJsSpace(s[i])
  {
    if s != [] && IsJsSpace(s[|s| - 1]) then TrimEnd(s[..|s| - 1]) else s
  }

  /** `s.trim()`: the text between the leading and the trailing white space. */
  function Trim(s: string): string {
    TrimEnd(TrimStart(s))
  }

  predicate AllSpace(s: string) {
    forall i :: 0 <= i < |s| ==> IsJsSpace(s[i])
  }

  /** `!s.trim()` holds exactly for strings made only of white space (the empty one included). */
  lemma TrimEmptyIff(s: string)
    ensures Trim(s) == [] <==> AllSpace(s)
  {
    var t := TrimStart(s);
    if t != [] {
      assert t[0] == s[|s| - |t|];
    }
  }

  /** The trimmed text is the slice that starts after the leading white space. */
  lemma TrimSlice(s: string) returns (i: nat, j: nat)
    ensures i == |s| - |TrimStart(s)| && j == i + |Trim(s)| <= |s|
    ensures Trim(s) == s[i..j]
  {
    var t := TrimStart(s);
    var r := TrimEnd(t);
    i, j := |s| - |t|, |s| - |t| + |r|;
    assert t == s[i..] && r == t[..|r|];
    PrefixOfSuffix(s, i, |r|);
  }

  lemma PrefixOfSuffix<T>(s: seq<T>, i: nat, n: nat)
    requires i + n <= |s|
    ensures s[i..][..n] == s[i..i + n]
  {
  }

  /** What lies before and after that slice is white space. */
  lemma TrimEdges(s: string, i: nat, j: nat)
    requires i == |s| - |TrimStart(s)| && j == i + |Trim(s)| <= |s|
    ensures forall k :: 0 <= k < i ==> IsJsSpace(s[k])
    ensures forall k :: j <= k < |s| ==> IsJsSpace(s[k])
  {
    var t := TrimStart(s);
    var r := TrimEnd(t);
    assert t == s[i..];
    forall k | j <= k < |s|
      ensures IsJsSpace(s[k])
    {
      assert s[k] == t[k - i] && |r| <= k - i < |t|;
      assert IsJsSpace(t[k - i]);
    }
  }

  /** Trimming keeps a middle part of the text: what it removes is white space only. */
  lemma TrimIsInfix(s: string)
    ensures exists i, j :: 0 <= i <= j <= |s| && Trim(s) == s[i..j]
                           && (forall k :: 0 <= k < i ==> IsJsSpace(s[k]))
                           && (forall k :: j <= k < |s| ==> IsJsSpace(s[k]))
  {
    var i, j := TrimSlice(s);
    TrimEdges(s, i, j);
  }

  // ---------------------------------------------------------------------------
  // Dates and the birth-date text
  // ---------------------------------------------------------------------------

  /** A calendar date as a JavaScript Date reports it: 0-based month, 1-based day. */
  datatype Date = Date(year: nat, month0: nat, day: nat)

  predicate ValidDate(d: Date) {
    d.month0 < 12 && 1 <= d.day <= 31
  }

  const Placeholder: string := "년 - 월 - 일"

  /**
   * `fmt`: the placeholder for no date, otherwise year, month and day joined by "-",
   * with the month counted from 1 and month and day padded to two digits.
   */
  function Fmt(d: Option<Date>): (r: string)
    ensures d.None? ==> r == Placeholder
    ensures d.Some? && ValidDate(d.value) ==>
      && |r| >= 7 && r[|r| - 6] == '-' && r[|r| - 3] == '-'
      && AllDigits(r[..|r| - 6])
      && DigitsValue(r[..|r| - 6]) == d.value.year
  {
    match d
    case None => Placeholder
    case Some(date) =>
      var y, mm, dd := NatToString(date.year), Pad2(date.month0 + 1), Pad2(date.day);
      var r := y + "-" + mm + "-" + dd;
      assert ValidDate(date) ==> r[|r| - 6] == '-' && r[|r| - 3] == '-' && r[..|r| - 6] == y by {
        if ValidDate(date) { DateTextParts(y, mm, dd); }
      }
      DigitsValueOfNatToString(date.year);
      r
  }

  /** In "Y…Y-MM-DD" with two-character groups, each part sits at a fixed distance from the end. */
  lemma DateTextParts(y: string, mm: string, dd: string)
    requires |mm| == 2 && |dd| == 2
    ensures var r := y + "-" + mm + "-" + dd;
      && |r| == |y| + 6 && r[|r| - 6] == '-' && r[|r| - 3] == '-'
      && r[..|r| - 6] == y && r[|r| - 5..|r| - 3] == mm && r[|r| - 2..] == dd
  {
  }

  /** Three two-character-grouped parts joined by '-' read back as the date the parts spell. */
  lemma ParseDateOfParts(y: string, mm: string, dd: string)
    requires |mm| == 2 && |dd| == 2
    ensures ParseDate(y + "-" + mm + "-" + dd) == DateOfParts(y, mm, dd)
  {
    DateTextParts(y, mm, dd);
  }

  /** Conversely, a text with '-' at those two places is its three parts joined by '-'. */
  lemma DateTextJoin(r: string)
    requires |r| >= 7 && r[|r| - 6] == '-' && r[|r| - 3] == '-'
    ensures r == r[..|r| - 6] + "-" + r[|r| - 5..|r| - 3] + "-" + r[|r| - 2..]
  {
    assert r == r[..|r| - 6] + r[|r| - 6..];
    assert r[|r| - 6..] == "-" + r[|r| - 5..|r| - 3] + "-" + r[|r| - 2..];
  }

  /** Reads "Y…Y-MM-DD" back into a date; None for anything else, leading zeros the formatter never writes included. */
  function ParseDate(r: string): Option<Date> {
    if |r| >= 7 && r[|r| - 6] == '-' && r[|r| - 3] == '-'
    then DateOfParts(r[..|r| - 6], r[|r| - 5..|r| - 3], r[|r| - 2..])
    else None
  }

  /** The date spelt by a year, a month and a day group, each written as the formatter writes it. */
  function DateOfParts(y: string, mm: string, dd: string): Option<Date> {
    if IsNumeral(y) && IsPadded2(mm) && IsPadded2(dd) && DigitsValue(mm) >= 1
    then Some(Date(DigitsValue(y), DigitsValue(mm) - 1, DigitsValue(dd)))
    else None
  }

  /** The text on the date button determines the date picked; the placeholder reads as none. */
  lemma FmtRoundTrip(d: Option<Date>)
    requires d.Some? ==> ValidDate(d.value)
    ensures ParseDate(Fmt(d)) == d
  {
    if d.Some? {
      FmtDateRoundTrip(d.value);
    } else {
      assert Placeholder[|Placeholder| - 6] != '-';
    }
  }

  lemma FmtDateRoundTrip(date: Date)
    requires ValidDate(date)
    ensures ParseDate(Fmt(Some(date))) == Some(date)
  {
    var y, mm, dd := NatToString(date.year), Pad2(date.month0 + 1), Pad2(date.day);
    assert Fmt(Some(date)) == y + "-" + mm + "-" + dd;
    RenderedAreCanonical(date.year);
    RenderedAreCanonical(date.month0 + 1);
    RenderedAreCanonical(date.day);
    assert DateOfParts(y, mm, dd) == Some(date);
    ParseDateOfParts(y, mm, dd);
  }

  /** The reader accepts only texts the date button can show: what reads back as `d` is the text of `d`. */
  lemma ParseDateInverse(r: string)
    requires ParseDate(r).Some?
    ensures Fmt(ParseDate(r)) == r
  {
    var y, mm, dd := r[..|r| - 6], r[|r| - 5..|r| - 3], r[|r| - 2..];
    var date := ParseDate(r).value;
    assert date.year == DigitsValue(y) && date.month0 + 1 == DigitsValue(mm) && date.day == DigitsValue(dd);
    DateTextJoin(r);
  }

  lemma FmtInjective(a: Option<Date>, b: Option<Date>)
    requires a.Some? ==> ValidDate(a.value)
    requires b.Some? ==> ValidDate(b.value)
    ensures Fmt(a) == Fmt(b) <==> a == b
  {
    FmtRoundTrip(a);
    FmtRoundTrip(b);
  }

  // ---------------------------------------------------------------------------
  // The form and its controls
  // ---------------------------------------------------------------------------

  datatype Form = Form(
    nickname: string,
    gender: string,
    birth: Option<Date>,
    showPicker: bool,
    loginId: string,
    pw: string,
    pw2: string)

  const Blank: Form := Form("", "M", None, false, "", "", "")

  datatype Platform = Android | Ios

  datatype Control =
    | TypeNickname(text: string)
    | TapMale
    | TapFemale
    | OpenPicker
    | PickerChanged(platform: Platform, date: Option<Date>)   // None: dismissed without a date
    | PickerDone                                               // the iOS sheet's done button
    | TypeLoginId(text: string)
    | TypePassword(text: string)
    | TypeConfirmation(text: string)

  /** How each control changes the form's state. */
  function Apply(f: Form, c: Control): (g: Form)
    ensures c.TapMale? ==> g.gender == "M"
    ensures c.TapFemale? ==> g.gender == "F"
    ensures !c.TapMale? && !c.TapFemale? ==> g.gender == f.gender
    ensures c.PickerChanged? && c.date.Some? ==> g.birth == c.date
    ensures !(c.PickerChanged? && c.date.Some?) ==> g.birth == f.birth
  {
    match c
    case TypeNickname(text) => f.(nickname := text)
    case TapMale => f.(gender := "M")
    case TapFemale => f.(gender := "F")
    case OpenPicker => f.(showPicker := true)
    case PickerChanged(platform, date) =>
      var closed := if platform == Android then f.(showPicker := false) else f;
      if date.Some? then closed.(birth := date) else closed
    case PickerDone => f.(showPicker := false)
    case TypeLoginId(text) => f.(loginId := text)
    case TypePassword(text) => f.(pw := text)
    case TypeConfirmation(text) => f.(pw2 := text)
  }

  function ApplyAll(f: Form, cs: seq<Control>): Form
    decreases |cs|
  {
    if cs == [] then f else ApplyAll(Apply(f, cs[0]), cs[1..])
  }

  /**
   * Whatever the user does, the gender stays "M" or "F", and a birth date once picked is
   * never cleared again (the picker can only replace it).
   */
  lemma {:induction false} ApplyAllKeepsChoices(f: Form, cs: seq<Control>)
    requires f.gender == "M" || f.gender == "F"
    ensures ApplyAll(f, cs).gender == "M" || ApplyAll(f, cs).gender == "F"
    ensures f.birth.Some? ==> ApplyAll(f, cs).birth.Some?
    decreases |cs|
  {
    if cs != [] {
      ApplyAllKeepsChoices(Apply(f, cs[0]), cs[1..]);
    }
  }

  lemma BlankFormChoices(cs: seq<Control>)
    ensures ApplyAll(Blank, cs).gender == "M" || ApplyAll(Blank, cs).gender == "F"
  {
    ApplyAllKeepsChoices(Blank, cs);
  }

  // ---------------------------------------------------------------------------
  // Submit
  // ---------------------------------------------------------------------------

  const MinPasswordLength: nat := 6

  datatype SignupError = NicknameMissing | BirthMissing | LoginIdMissing | PasswordTooShort | PasswordMismatch

  function ErrorMessage(e: SignupError): string {
    match e
    case NicknameMissing => "닉네임을 입력해 주세요."
    case BirthMissing => "생년월일을 선택해 주세요."
    case LoginIdMissing => "아이디를 입력해 주세요."
    case PasswordTooShort => "비밀번호는 6자 이상으로 설정해 주세요."
    case PasswordMismatch => "비밀번호 확인이 일치하지 않습니다."
  }

  const SignupFailedMessage: string := "회원가입에 실패했습니다. 다시 시도해 주세요."

  /**
   * The five checks of `submit`, in order; the first that fails is reported. Nickname and
   * login id are trimmed; the password is not.
   */
  function Validate(f: Form): (r: Option<SignupError>)
    ensures r == Some(NicknameMissing) <==> AllSpace(f.nickname)
    ensures r == Some(BirthMissing) <==> !AllSpace(f.nickname) && f.birth.None?
    ensures r == Some(LoginIdMissing) <==> !AllSpace(f.nickname) && f.birth.Some? && AllSpace(f.loginId)
    ensures r == Some(PasswordTooShort) <==>
      !AllSpace(f.nickname) && f.birth.Some? && !AllSpace(f.loginId) && |f.pw| < MinPasswordLength
    ensures r == Some(PasswordMismatch) <==>
      !AllSpace(f.nickname) && f.birth.Some? && !AllSpace(f.loginId) && |f.pw| >= MinPasswordLength
      && f.pw != f.pw2
    ensures r == None <==>
      !AllSpace(f.nickname) && f.birth.Some? && !AllSpace(f.loginId) && |f.pw| >= MinPasswordLength
      && f.pw == f.pw2
  {
    TrimEmptyIff(f.nickname);
    TrimEmptyIff(f.loginId);
    if Trim(f.nickname) == "" then Some(NicknameMissing)
    else if f.birth.None? then Some(BirthMissing)
    else if Trim(f.loginId) == "" then Some(LoginIdMissing)
    else if |f.pw| < MinPasswordLength then Some(PasswordTooShort)
    else if f.pw != f.pw2 then Some(PasswordMismatch)
    else None
  }

  /** What pressing the button leads to: one alert, or the call to `login`. */
  datatype Outcome = Alerted(message: string) | LoggedIn

  /**
   * `submit`: an alert naming the first failed check, or the call to `login`; when that
   * call throws, the generic failure alert. `loginThrows` stands for the outcome of the
   * authentication context, which is not part of this model.
   */
  function Submit(f: Form, loginThrows: bool): (r: Outcome)
    ensures Validate(f).Some? ==> r == Alerted(ErrorMessage(Validate(f).value))
    ensures Validate(f).None? && !loginThrows ==> r == LoggedIn
    ensures Validate(f).None? && loginThrows ==> r == Alerted(SignupFailedMessage)
  {
    match Validate(f)
    case Some(e) => Alerted(ErrorMessage(e))
    case None => if loginThrows then Alerted(SignupFailedMessage) else LoggedIn
  }

  /** Each failure has its own message, distinct from the generic sign-up failure. */
  lemma MessagesDistinct(a: SignupError, b: SignupError)
    ensures ErrorMessage(a) == ErrorMessage(b) <==> a == b
    ensures ErrorMessage(a) != SignupFailedMessage
  {
    // the messages differ in their first or fifth character
    var ma, mb := ErrorMessage(a), ErrorMessage(b);
    if a != b {
      assert ma[0] != mb[0] || ma[4] != mb[4];
    }
    assert ma[0] != SignupFailedMessage[0];
  }

  /** `login` is reached exactly when all five checks pass and it does not throw. */
  lemma LoginIffAllChecksPass(f: Form, loginThrows: bool)
    ensures Submit(f, loginThrows) == LoggedIn <==>
      && !AllSpace(f.nickname) && f.birth.Some? && !AllSpace(f.loginId)
      && |f.pw| >= MinPasswordLength && f.pw == f.pw2 && !loginThrows
  {
    if Validate(f).Some? {
      assert Submit(f, loginThrows).Alerted?;
    }
  }

  /** The length bound: six characters pass, five do not, whatever they are (spaces count). */
  lemma PasswordLengthBoundary(f: Form)
    requires !AllSpace(f.nickname) && f.birth.Some? && !AllSpace(f.loginId) && f.pw == f.pw2
    ensures |f.pw| == 6 ==> Validate(f) == None
    ensures |f.pw| == 5 ==> Validate(f) == Some(PasswordTooShort)
  {
  }

  /** A short password that also does not match is reported as too short. */
  lemma ShortBeforeMismatch(f: Form)
    requires !AllSpace(f.nickname) && f.birth.Some? && !AllSpace(f.loginId)
    requires |f.pw| < MinPasswordLength && f.pw != f.pw2
    ensures Validate(f) == Some(PasswordTooShort)
  {
  }
}

=== FILE: uri_component.dfy ===
/**
 * The `encodeURIComponent` function of ECMA-262 and its Encode abstract operation,
 * over strings of Unicode scalar values: characters of the unescaped set pass
 * through, every other character is written as the UTF-8 bytes of its code point,
 * each as a percent-encoded octet in the form of section 2.1 of RFC 3986 with
 * upper-case hexadecimal digits. The decoder is the model's reference inverse.
 */
module UriComponent {
  import opened Wrappers
  import opened Octets

  /** ECMA-262 uriUnescaped: ASCII letters, decimal digits and the marks - _ . ! ~ * ' ( ). */
  predicate Unreserved(c: char) {
    ('A' <= c <= 'Z') || ('a' <= c <= 'z') || ('0' <= c <= '9') || c in "-_.!~*'()"
  }

  predicate IsUpperHex(c: char) {
    ('0' <= c <= '9') || ('A' <= c <= 'F')
  }

  /** The characters that may appear in an encoded component. */
  predicate UriSafe(c: char) {
    Unreserved(c) || c == '%'
  }

  function HexDigit(n: nat): (c: char)
    requires n < 16
    ensures IsUpperHex(c)
  {
    if n < 10 then ('0' as int + n) as char else ('A' as int + n - 10) as char
  }

  /** Value of a hexadecimal digit of either case, as a decoder reads it. */
  function HexValue(c: char): Option<nat> {
    if '0' <= c <= '9' then Some(c as int - '0' as int)
    else if 'A' <= c <= 'F' then Some(c as int - 'A' as int + 10)
    else if 'a' <= c <= 'f' then Some(c as int - 'a' as int + 10)
    else None
  }

  lemma HexValueOfHexDigit(n: nat)
    requires n < 16
    ensures HexValue(HexDigit(n)) == Some(n)
  {
  }

  /** The UTF-8 encoding of one Unicode scalar value (RFC 3629, section 3). */
  function Utf8(c: char): (bs: seq<Byte>)
    ensures 1 <= |bs| <= 4
    ensures c as int < 0x80 <==> |bs| == 1
  {
    var cp := c as int;
    if cp < 0x80 then [cp]
    else if cp < 0x800 then [0xC0 + cp / 64, 0x80 + cp % 64]
    else if cp < 0x10000 then [0xE0 + cp / 4096, 0x80 + (cp / 64) % 64, 0x80 + cp % 64]
    else [0xF0 + cp / 0x40000, 0x80 + (cp / 4096) % 64, 0x80 + (cp / 64) % 64, 0x80 + cp % 64]
  }

  /** One octet as "%XY". */
  function PercentByte(b: Byte): (s: string)
    ensures |s| == 3 && s[0] == '%' && IsUpperHex(s[1]) && IsUpperHex(s[2])
  {
    ['%', HexDigit(b / 16), HexDigit(b % 16)]
  }

  function PercentBytes(bs: seq<Byte>): (s: string)
    ensures |s| == 3 * |bs|
    ensures forall i :: 0 <= i < |s| ==> s[i] == '%' || IsUpperHex(s[i])
  {
    if bs == [] then [] else PercentByte(bs[0]) + PercentBytes(bs[1..])
  }

  function EncodeChar(c: char): (s: string)
    ensures 1 <= |s|
    ensures Unreserved(c) ==> s == [c]
    ensures !Unreserved(c) ==> s[0] == '%' && |s| >= 3
  {
    if Unreserved(c) then [c] else PercentBytes(Utf8(c))
  }

  /** `encodeURIComponent(s)`. Every character of the result is URI-safe. */
  function Encode(s: string): (r: string)
    ensures |r| >= |s|
    ensures forall i :: 0 <= i < |r| ==> UriSafe(r[i])
  {
    if s == [] then [] else EncodeChar(s[0]) + Encode(s[1..])
  }

  // ---------------------------------------------------------------------------
  // Reference decoder (the inverse, in the manner of `decodeURIComponent`)
  // ---------------------------------------------------------------------------

  predicate IsContinuation(b: Byte) {
    0x80 <= b < 0xC0
  }

  /** Number of octets announced by a UTF-8 lead octet; 0 for an octet that cannot lead. */
  function SequenceLength(lead: Byte): nat {
    if lead < 0x80 then 1
    else if 0xC0 <= lead < 0xE0 then 2
    else if 0xE0 <= lead < 0xF0 then 3
    else if 0xF0 <= lead < 0xF8 then 4
    else 0
  }

  predicate IsScalar(cp: int) {
    (0 <= cp < 0xD800) || (0xE000 <= cp < 0x110000)
  }

  /** Decodes one complete UTF-8 sequence, refusing overlong forms, surrogates and out-of-range values. */
  function DecodeUtf8(bs: seq<Byte>): Option<char> {
    if |bs| == 1 && bs[0] < 0x80 then
      Some(bs[0] as char)
    else if |bs| == 2 && 0xC0 <= bs[0] < 0xE0 && IsContinuation(bs[1]) then
      var cp := (bs[0] as int - 0xC0) * 64 + (bs[1] as int - 0x80);
      if cp >= 0x80 then Some(cp as char) else None
    else if |bs| == 3 && 0xE0 <= bs[0] < 0xF0 && IsContinuation(bs[1]) && IsContinuation(bs[2]) then
      var cp := (bs[0] as int - 0xE0) * 4096 + (bs[1] as int - 0x80) * 64 + (bs[2] as int - 0x80);
      if cp >= 0x800 && IsScalar(cp) then Some(cp as char) else None
    else if |bs| == 4 && 0xF0 <= bs[0] < 0xF8 && IsContinuation(bs[1]) && IsContinuation(bs[2])
            && IsContinuation(bs[3]) then
      var cp := (bs[0] as int - 0xF0) * 0x40000 + (bs[1] as int - 0x80) * 4096
                + (bs[2] as int - 0x80) * 64 + (bs[3] as int - 0x80);
      if cp >= 0x10000 && IsScalar(cp) then Some(cp as char) else None
    else
      None
  }

  /** Reads one "%XY" octet at the front of `s`. */
  function ReadByte(s: string): Option<Byte> {
    if |s| >= 3 && s[0] == '%' && HexValue(s[1]).Some? && HexValue(s[2]).Some? then
      Some(HexValue(s[1]).value * 16 + HexValue(s[2]).value)
    else
      None
  }

  /** Reads `n` consecutive percent-encoded octets at the front of `s`. */
  function ReadBytes(s: string, n: nat): (r: Option<seq<Byte>>)
    ensures r.Some? ==> |r.value| == n && 3 * n <= |s|
  {
    if n == 0 then Some([])
    else match ReadByte(s)
      case None => None
      case Some(b) =>
        match ReadBytes(s[3..], n - 1)
        case None => None
        case Some(rest) => Some([b] + rest)
  }

  /** Decodes the first character of `s`, returning it and the number of characters consumed. */
  function DecodeOne(s: string): (r: Option<(char, nat)>)
    requires |s| > 0
    ensures r.Some? ==> 1 <= r.value.1 <= |s|
  {
    if s[0] != '%' then Some((s[0], 1))
    else match ReadByte(s)
      case None => None
      case Some(lead) =>
        var n := SequenceLength(lead);
        if n == 0 then None
        else match ReadBytes(s, n)
          case None => None
          case Some(bs) =>
            match DecodeUtf8(bs)
            case None => None
            case Some(c) => Some((c, 3 * n))
  }

  /** `decodeURIComponent(s)`; None where JavaScript's `decodeURIComponent` throws a URIError. */
  function Decode(s: string): Option<string>
    decreases |s|
  {
    if s == [] then Some([])
    else match DecodeOne(s)
      case None => None
      case Some((c, k)) =>
        match Decode(s[k..])
        case None => None
        case Some(rest) => Some([c] + rest)
  }

  // ---------------------------------------------------------------------------
  // Round trip
  // ---------------------------------------------------------------------------

  lemma ReadBytePercentByte(b: Byte, rest: string)
    ensures ReadByte(PercentByte(b) + rest) == Some(b)
  {
    HexValueOfHexDigit(b / 16);
    HexValueOfHexDigit(b % 16);
  }

  lemma {:induction false} ReadBytesPercentBytes(bs: seq<Byte>, rest: string)
    ensures ReadBytes(PercentBytes(bs) + rest, |bs|) == Some(bs)
  {
    if bs != [] {
      var s := PercentBytes(bs) + rest;
      var tail := PercentBytes(bs[1..]) + rest;
      assert s == PercentByte(bs[0]) + tail;
      ReadBytePercentByte(bs[0], tail);
      assert s[3..] == tail;
      ReadBytesPercentBytes(bs[1..], rest);
      assert ReadBytes(tail, |bs| - 1) == Some(bs[1..]);
      assert [bs[0]] + bs[1..] == bs;
    }
  }

  lemma DecodeUtf8TwoBytes(c: char)
    requires 0x80 <= c as int < 0x800
    ensures SequenceLength(Utf8(c)[0]) == 2
    ensures DecodeUtf8(Utf8(c)) == Some(c)
  {
  }

  /** Base-64 digits of a code point: the low six bits and the rest. */
  lemma SixBits(x: int)
    requires 0 <= x
    ensures x == (x / 64) * 64 + x % 64 && 0 <= x % 64 < 64
  {
  }

  lemma ThreeDigits(cp: int)
    requires 0 <= cp
    ensures cp == (cp / 4096) * 4096 + ((cp / 64) % 64) * 64 + cp % 64
  {
    SixBits(cp);
    SixBits(cp / 64);
    assert (cp / 64) / 64 == cp / 4096;
  }

  lemma FourDigits(cp: int)
    requires 0 <= cp
    ensures cp == (cp / 0x40000) * 0x40000 + ((cp / 4096) % 64) * 4096 + ((cp / 64) % 64) * 64 + cp % 64
  {
    ThreeDigits(cp);
    SixBits(cp / 4096);
    assert (cp / 4096) / 64 == cp / 0x40000;
  }

  lemma DecodeUtf8ThreeBytes(c: char)
    requires 0x800 <= c as int < 0x10000
    ensures SequenceLength(Utf8(c)[0]) == 3
    ensures DecodeUtf8(Utf8(c)) == Some(c)
  {
    var cp := c as int;
    var a, b, d := cp / 4096, (cp / 64) % 64, cp % 64;
    ThreeDigits(cp);
    assert Utf8(c) == [0xE0 + a, 0x80 + b, 0x80 + d];
    assert (0xE0 + a - 0xE0) * 4096 + (0x80 + b - 0x80) * 64 + (0x80 + d - 0x80) == cp;
  }

  lemma DecodeUtf8FourBytes(c: char)
    requires 0x10000 <= c as int
    ensures SequenceLength(Utf8(c)[0]) == 4
    ensures DecodeUtf8(Utf8(c)) == Some(c)
  {
    var cp := c as int;
    var a, b, d, e := cp / 0x40000, (cp / 4096) % 64, (cp / 64) % 64, cp % 64;
    FourDigits(cp);
    assert Utf8(c) == [0xF0 + a, 0x80 + b, 0x80 + d, 0x80 + e];
    assert (0xF0 + a - 0xF0) * 0x40000 + (0x80 + b - 0x80) * 4096 + (0x80 + d - 0x80) * 64
           + (0x80 + e - 0x80) == cp;
  }

  lemma DecodeUtf8OfUtf8(c: char)
    ensures SequenceLength(Utf8(c)[0]) == |Utf8(c)|
    ensures DecodeUtf8(Utf8(c)) == Some(c)
  {
    var cp := c as int;
    if cp >= 0x10000 {
      DecodeUtf8FourBytes(c);
    } else if cp >= 0x800 {
      DecodeUtf8ThreeBytes(c);
    } else if cp >= 0x80 {
      DecodeUtf8TwoBytes(c);
    }
  }

  lemma DecodeOneEncodeChar(c: char, rest: string)
    ensures DecodeOne(EncodeChar(c) + rest) == Some((c, |EncodeChar(c)|))
  {
    if !Unreserved(c) {
      var bs := Utf8(c);
      var s := PercentBytes(bs) + rest;
      assert s == PercentByte(bs[0]) + (PercentBytes(bs[1..]) + rest);
      ReadBytePercentByte(bs[0], PercentBytes(bs[1..]) + rest);
      ReadBytesPercentBytes(bs, rest);
      DecodeUtf8OfUtf8(c);
    }
  }

  /** Decoding undoes encoding: the server recovers exactly the component that was encoded. */
  lemma DecodeStep(s: string, c: char, k: nat, rest: string)
    requires s != [] && DecodeOne(s) == Some((c, k)) && Decode(s[k..]) == Some(rest)
    ensures Decode(s) == Some([c] + rest)
  {
  }

  lemma DecodeEncodeCons(c: char, rest: string)
    requires Decode(Encode(rest)) == Some(rest)
    ensures Decode(EncodeChar(c) + Encode(rest)) == Some([c] + rest)
  {
    var e := EncodeChar(c) + Encode(rest);
    DecodeOneEncodeChar(c, Encode(rest));
    assert e[|EncodeChar(c)|..] == Encode(rest);
    DecodeStep(e, c, |EncodeChar(c)|, rest);
  }

  lemma {:induction false} DecodeEncode(s: string)
    ensures Decode(Encode(s)) == Some(s)
  {
    if s != [] {
      DecodeEncode(s[1..]);
      DecodeEncodeCons(s[0], s[1..]);
      assert Encode(s) == EncodeChar(s[0]) + Encode(s[1..]);
      assert [s[0]] + s[1..] == s;
    }
  }

  /** Encoding distributes over concatenation: each character is encoded on its own. */
  lemma {:induction false} EncodeAppend(a: string, b: string)
    ensures Encode(a + b) == Encode(a) + Encode(b)
  {
    if a != [] {
      assert (a + b)[0] == a[0];
      assert (a + b)[1..] == a[1..] + b;
      assert Encode(a + b) == EncodeChar(a[0]) + Encode(a[1..] + b);
      EncodeAppend(a[1..], b);
    } else {
      assert a + b == b;
    }
  }

  /** A component is left unchanged exactly when all of its characters are unreserved. */
  lemma {:induction false} EncodeIdentityIff(s: string)
    ensures Encode(s) == s <==> forall i :: 0 <= i < |s| ==> Unreserved(s[i])
  {
    if s != [] {
      EncodeIdentityIff(s[1..]);
      assert Encode(s) == EncodeChar(s[0]) + Encode(s[1..]);
      if Unreserved(s[0]) {
        if Encode(s) == s {
          assert Encode(s[1..]) == s[1..];
        }
        if forall i :: 0 <= i < |s| ==> Unreserved(s[i]) {
          assert forall i :: 0 <= i < |s[1..]| ==> Unreserved(s[1..][i]);
          assert [s[0]] + s[1..] == s;
        }
      } else {
        assert |Encode(s)| >= 3 + |s| - 1;
      }
    }
  }

  /** The space of "Bearer <token>" is the only character of that prefix that gets escaped. */
  lemma EncodeSpace()
    ensures Encode(" ") == "%20"
  {
    assert Encode(" ") == EncodeChar(' ') + Encode([]);
    assert Utf8(' ') == [32];
  }

  /** A space in front of a string is sent as "%20" and the rest is encoded on its own. */
  lemma EncodeSpacePrefix(rest: string)
    ensures Encode(" " + rest) == "%20" + Encode(rest)
  {
    EncodeAppend(" ", rest);
    EncodeSpace();
  }

  /** A prefix of unreserved characters passes through unchanged. */
  lemma EncodePlainPrefix(word: string, rest: string)
    requires forall i :: 0 <= i < |word| ==> Unreserved(word[i])
    ensures Encode(word + rest) == word + Encode(rest)
  {
    EncodeIdentityIff(word);
    EncodeAppend(word, rest);
  }
}

=== FILE: wrappers.dfy ===
/** Option datatype shared by the model's partial functions (parsers, lookups). */
module Wrappers {

  /** The conventional Some/None datatype, used where the app's JavaScript has null or undefined. */
  datatype Option<+T> = None | Some(value: T) {

    /** Returns the value in Some, or `default` when None (JavaScript's `x ?? default`). */
    function GetOr(default: T): (r: T)
      ensures Some? ==> r == value
      ensures None? ==> r == default
    {
      match this
      case Some(v) => v
      case None => default
    }
  }
}

/** Octets, as the elements of a JavaScript `Uint8Array`. */
module Octets {

  type Byte = b: int | 0 <= b < 256
}

=== FILE: ws_helpers.dfy ===
/**
 * Payload helpers of the streaming loop (utils/wsHelpers.ts): the optional zip
 * packaging of a recorded clip, which falls back to the clip itself, and the copy of
 * a decoded binary string into a byte buffer.
 */
module WsHelpers {
  import opened Wrappers
  import opened Octets

  /**
   * The native zip capability: either the module failed to load, or it is present and
   * the zip call of this invocation succeeds or throws.
   */
  datatype ZipModule = Unavailable | Available(zipSucceeds: bool)

  /** The regular expression `/\.mp4$/i` matches: ".mp4" in any letter case, at the very end. */
  predicate EndsWithMp4(s: string) {
    && |s| >= 4
    && s[|s| - 4] == '.'
    && (s[|s| - 3] == 'm' || s[|s| - 3] == 'M')
    && (s[|s| - 2] == 'p' || s[|s| - 2] == 'P')
    && s[|s| - 1] == '4'
  }

  /** The archive path: one trailing ".mp4" (any case) replaced by ".zip", else ".zip" appended. */
  function ZipTarget(uri: string): (r: string)
    ensures |r| >= 4 && r[|r| - 4..] == ".zip"
    ensures EndsWithMp4(uri) ==> r[..|r| - 4] == uri[..|uri| - 4]
    ensures !EndsWithMp4(uri) ==> r[..|r| - 4] == uri
  {
    var stem := if EndsWithMp4(uri) then uri[..|uri| - 4] else uri;
    stem + ".zip"
  }

  /** The archive path is never the clip path itself, so the two outcomes stay distinguishable. */
  lemma ZipTargetDiffers(uri: string)
    ensures ZipTarget(uri) != uri
  {
    var r := ZipTarget(uri);
    if EndsWithMp4(uri) {
      assert r[|r| - 1] == 'p' && uri[|uri| - 1] == '4';
    } else {
      assert |r| == |uri| + 4;
    }
  }

  /** A clip named `<base>.mp4` (any case of "mp4") is archived as `<base>.zip`. */
  lemma ZipTargetOfMp4(base: string, ext: string)
    requires EndsWithMp4(ext) && |ext| == 4
    ensures ZipTarget(base + ext) == base + ".zip"
  {
    var uri := base + ext;
    assert EndsWithMp4(uri);
    assert uri[..|uri| - 4] == base;
  }

  /** Only a final ".mp4" is removed: any other path keeps all its characters. */
  lemma ZipTargetOfOther(uri: string)
    requires !EndsWithMp4(uri)
    ensures ZipTarget(uri) == uri + ".zip"
  {
  }

  /**
   * `zipSingleFileIfAvailable`: the clip itself when the zip module is missing or the zip
   * call throws, the archive path when the zip call succeeds; never anything else.
   */
  function ZipSingleFileIfAvailable(uri: string, zip: ZipModule): (r: string)
    ensures r == uri || r == ZipTarget(uri)
    ensures r == ZipTarget(uri) <==> zip == Available(true)
    ensures r == uri <==> zip != Available(true)
  {
    ZipTargetDiffers(uri);
    match zip
    case Unavailable => uri
    case Available(ok) => if ok then ZipTarget(uri) else uri
  }

  /** Reference meaning of the copy: element i of the `Uint8Array` is char code i reduced mod 256. */
  function Latin1Bytes(binary: string): (bs: seq<Byte>)
  {
    seq(|binary|, i requires 0 <= i < |binary| => binary[i] as int % 256)
  }

  /** `String.fromCharCode` over a byte buffer: the inverse direction. */
  function BytesToBinary(bs: seq<Byte>): (s: string)
  {
    seq(|bs|, i requires 0 <= i < |bs| => bs[i] as char)
  }

  /** Bytes survive the trip through a binary string unchanged. */
  lemma BytesRoundTrip(bs: seq<Byte>)
    ensures Latin1Bytes(BytesToBinary(bs)) == bs
  {
  }

  /** A string survives the trip through bytes exactly when every char code is below 256. */
  lemma BinaryRoundTripIff(s: string)
    ensures BytesToBinary(Latin1Bytes(s)) == s <==> forall i :: 0 <= i < |s| ==> s[i] as int < 256
  {
    var t := BytesToBinary(Latin1Bytes(s));
    if t == s {
      forall i | 0 <= i < |s|
        ensures s[i] as int < 256
      {
        assert t[i] == s[i];
      }
    }
  }

  /** The copy loop of `b64ToArrayBuffer`: a zero-filled buffer of the string's length, then one byte per char. */
  method BinaryToBytes(binary: string) returns (bytes: seq<Byte>)
    ensures |bytes| == |binary|
    ensures forall i :: 0 <= i < |binary| ==> bytes[i] == binary[i] as int % 256
    ensures bytes == Latin1Bytes(binary)
  {
    var len := |binary|;
    var buffer := new Byte[len];
    var i := 0;
    while i < len
      invariant 0 <= i <= len
      invariant forall j :: 0 <= j < i ==> buffer[j] == binary[j] as int % 256
    {
      buffer[i] := binary[i] as int % 256;
      i := i + 1;
    }
    bytes := buffer[..];
  }

  /**
   * `b64ToArrayBuffer`: a null or undefined input is decoded as "". The base64 decoder
   * (`atob` or `Buffer`) is a platform call and is passed in.
   */
  method B64ToArrayBuffer(b64: Option<string>, decodeBase64: string -> string) returns (bytes: seq<Byte>)
    ensures bytes == Latin1Bytes(decodeBase64(b64.GetOr("")))
    ensures b64 == None ==> bytes == Latin1Bytes(decodeBase64(""))
    ensures b64 == None && decodeBase64("") == "" ==> bytes == []
  {
    var binary := decodeBase64(b64.GetOr(""));
    bytes := BinaryToBytes(binary);
  }
}
